=== FILE: README.md ===
# Vector-layer feature iterator

A model of QGIS's `QgsVectorLayerFeatureIterator`
(`src/core/qgsvectorlayerfeatureiterator.cpp`). The iterator hands out the
features of a vector layer that a request selects. It merges three sources
into one stream:

- the layer's **edit buffer**: deleted ids, changed geometries, added
  features and changed attributes;
- the committed records of the layer's **data provider**;
- attribute values pulled from **joined layers**.

A request selects with no filter, with a rectangle, or with a single feature
id. It may also ask for no geometry, or for a subset of the attributes.

The model follows the source's form. The iterator is the class
`LayerIterator.FeatureIterator`. Its fields are:

- `closed` and `fetchedFid`;
- the considered-id set `fetchConsidered`;
- the two overlay cursors `changedGeomIt` and `addedIt`;
- the provider iterator;
- the join plan `fetchJoinInfo`.

Its methods change exactly those fields. Each `for` or `while` loop of the
source is a loop with invariants:

- the changed-geometry scan;
- the added-feature scan;
- the lookup of an added feature by id;
- the provider loop;
- the `prepareJoins` loop;
- the slot-by-slot join copy.

The direct join temporarily replaces the joined layer's subset string. A
joined layer is therefore a class whose `subsetString` the method changes and
restores.

A ghost `trace` records every emission of the current pass: its source, its
id and its position in that source. The pass invariant `Pass.PassInv` is
stated on values, and one lemma per step shows that the step keeps it. The
invariant says:

- emissions come phase by phase: changed geometries (rectangle requests
  only), then added features, then committed features;
- no id is emitted twice in a pass;
- no deleted id is emitted;
- each overlay emission lies behind its cursor;
- under a rectangle, the considered set is exactly the deleted ids plus the
  changed-geometry ids the cursor has passed.

Module layout:

- `features.dfy`: features, requests, schema helpers.
- `provider.dfy`: the provider's record stream and its point lookup by id.
- `pass.dfy`: the pass invariant and its step lemmas.
- `joins.dfy`: join enrichment (`addJoinedAttributes`, cached and direct).
- `joinplan.dfy`: what `prepareJoins` builds.
- `iterator.dfy`: the edit buffer, the layer and the iterator class.
- `findings.dfy`: the discrepancy recorded under Findings.

Where the code and its documented intent differ, the model follows the code:

- `nextFeature` closes the iterator itself when the provider runs dry (line
  125). So `rewind` after a full drain returns false and restarts nothing
  (`NextFeature` and `Rewind` state this). Draining twice with a rewind in
  between is only possible when the rewind comes before the end of the
  stream.
- A join field whose joined layer cannot be found trips `Q_ASSERT`s (lines
  304 and 307); the iterator does not fail closed. The model makes this a
  precondition (`JoinPlan.JoinOriginsResolved`, part of the layer's
  `Valid`).

## Model

| member | source | states |
|---|---|---|
| Features.SetAttribute | src/core/qgsvectorlayerfeatureiterator.cpp:376 | writing a slot changes exactly that slot; a write outside the vector changes nothing; the length is kept |
| Features.Resize | src/core/qgsvectorlayerfeatureiterator.cpp:338 | the vector gets exactly the field count: existing values are kept and new slots are invalid |
| Features.IndexFromName | src/core/qgsvectorlayerfeatureiterator.cpp:315-316 | the first position carrying the name, and -1 exactly when no field has it |
| Provider.PositionOfId | src/core/qgsvectorlayerfeatureiterator.cpp:456-457 | the first committed record with the id, or none when no record has it |
| Provider.FeatureAtId | src/core/qgsvectorlayerfeatureiterator.cpp:456-457 | the point request by id finds nothing exactly when no committed record has the id; otherwise a valid feature with that id, delivered from a record carrying it |
| Provider.ProviderIterator.NextFeature | src/core/qgsvectorlayerfeatureiterator.cpp:103 | the next record after the cursor that the request accepts, with every record skipped on the way rejected; at the end the cursor is at the end; a closed iterator yields nothing |
| Provider.ProviderIterator.Rewind | src/core/qgsvectorlayerfeatureiterator.cpp:142 | the cursor goes back to the start unless the iterator is closed |
| Provider.ProviderIterator.Close | src/core/qgsvectorlayerfeatureiterator.cpp:154 | the iterator is closed, its cursor kept; the result says whether it was open |
| Joins.JoinedSlots | src/core/qgsvectorlayerfeatureiterator.cpp:367-377 | joined value i (except the join field) lands in consecutive slots from the offset, skipping the join field; slots outside that range are unchanged; the length is kept |
| Joins.JoinedSlotsStep | src/core/qgsvectorlayerfeatureiterator.cpp:370-376 | one more joined value is skipped at the join field and otherwise written to the next slot |
| Joins.WriteJoined | src/core/qgsvectorlayerfeatureiterator.cpp:367-377 | the running-index loop computes exactly the slot assignment above |
| Joins.AddJoinedAttributesCached | src/core/qgsvectorlayerfeatureiterator.cpp:360-378 | a cache miss leaves the attributes unchanged; a hit copies the cached row into the join's slots |
| Joins.ComposeSubset | src/core/qgsvectorlayerfeatureiterator.cpp:385-392 | the query is `"field" = "value"` alone for an empty subset string, and is appended after ` AND ` otherwise; the original string is always a prefix |
| Joins.FirstSelectedAt | src/core/qgsvectorlayerfeatureiterator.cpp:399-403 | the first joined record the query selects: every earlier record is not selected, and there is none exactly when no record is selected |
| Joins.DirectMatch | src/core/qgsvectorlayerfeatureiterator.cpp:385-403 | the direct query has no match exactly when no joined record is selected under the composed subset string; otherwise the match is the first selected record |
| Joins.AddJoinedAttributesDirect | src/core/qgsvectorlayerfeatureiterator.cpp:382-421 | the joined layer's subset string is restored; a miss leaves the attributes unchanged; a hit copies the first match into the join's slots |
| Joins.JoinMatch | src/core/qgsvectorlayerfeatureiterator.cpp:346-354 | an invalid target value finds no match |
| Joins.ApplyJoin | src/core/qgsvectorlayerfeatureiterator.cpp:343-354 | one join: skipped for an invalid target value; otherwise the direct path for an empty cache and the cached path for a non-empty one; the joined layer is left unchanged |
| Joins.FoldJoins | src/core/qgsvectorlayerfeatureiterator.cpp:340-355 | applying the joins in order keeps the length, and leaves every slot before all join offsets as it was |
| Joins.FoldJoinsSnoc | src/core/qgsvectorlayerfeatureiterator.cpp:341-355 | the joins applied to k+1 entries are the k-entry result followed by entry k's join |
| Joins.JoinedAttributes | src/core/qgsvectorlayerfeatureiterator.cpp:338-355 | after addJoinedAttributes the vector has exactly the layer's field count, and slots before every join offset hold the original attribute (invalid past its end) |
| Joins.AddJoinedAttributes | src/core/qgsvectorlayerfeatureiterator.cpp:335-356 | the loop over the joins computes JoinedAttributes under the subset strings from before the call, and leaves every joined layer as it was |
| Joins.NoMatchKeepsAttributes | src/core/qgsvectorlayerfeatureiterator.cpp:347-354 | when no join finds a match, the attributes come back unchanged |
| Joins.CachedEqualsDirect | src/core/qgsvectorlayerfeatureiterator.cpp:350-354 | when the cache mirrors the joined layer, the cached path gives the same vector as the direct query |
| JoinPlan.InfoIndex | src/core/qgsvectorlayerfeatureiterator.cpp:309 | the entry of a joined layer, and none exactly when no entry names it |
| JoinPlan.FirstJoinAttOf | src/core/qgsvectorlayerfeatureiterator.cpp:309-313 | the first fetched attribute that a joined layer serves; no earlier attribute is served by that layer |
| JoinPlan.TargetsMissingAttributes | src/core/qgsvectorlayerfeatureiterator.cpp:326 | appending source indexes to an entry does not change the missing target fields |
| JoinPlan.SourcesOfNone | src/core/qgsvectorlayerfeatureiterator.cpp:326 | a layer serving no attribute has no source indexes |
| JoinPlan.SnocOtherLayer | src/core/qgsvectorlayerfeatureiterator.cpp:299-326 | an attribute of another layer changes neither a layer's first attribute nor its source indexes |
| JoinPlan.SnocSameLayer | src/core/qgsvectorlayerfeatureiterator.cpp:309-326 | an attribute of the layer appends its source index, and fixes the first attribute if there was none |
| JoinPlan.StepNonJoin | src/core/qgsvectorlayerfeatureiterator.cpp:299-300 | a non-join attribute keeps the plan invariant |
| JoinPlan.StepKnownLayer | src/core/qgsvectorlayerfeatureiterator.cpp:309-326 | an attribute of a layer that already has an entry keeps the plan invariant |
| JoinPlan.TargetsMissingSnoc | src/core/qgsvectorlayerfeatureiterator.cpp:319-320 | a new entry adds its target field to the missing ones exactly when it is not fetched |
| JoinPlan.NewLayerShape | src/core/qgsvectorlayerfeatureiterator.cpp:309-326 | the first attribute of a new layer appends one entry, with offset `att - sourceLayerIndex` and that one source index, and records its target field when it is not fetched |
| JoinPlan.NewLayerUnseen | src/core/qgsvectorlayerfeatureiterator.cpp:309 | a layer without an entry has served no earlier attribute |
| JoinPlan.NewLayerEntries | src/core/qgsvectorlayerfeatureiterator.cpp:311-326 | after a new layer's first attribute, every entry is still built from its layer's first attribute and lists its layer's source indexes |
| JoinPlan.NewLayerCovers | src/core/qgsvectorlayerfeatureiterator.cpp:309-322 | after a new layer's first attribute, every join attribute's layer still has an entry |
| JoinPlan.NewLayerRest | src/core/qgsvectorlayerfeatureiterator.cpp:319-322 | after a new layer's first attribute, the entries still name distinct layers and the extra fields are still exactly the missing targets |
| JoinPlan.StepNewLayer | src/core/qgsvectorlayerfeatureiterator.cpp:309-326 | the first attribute of a new layer keeps the plan invariant |
| JoinPlan.PlanStepInv | src/core/qgsvectorlayerfeatureiterator.cpp:297-327 | every iteration of the prepareJoins loop keeps the plan invariant |
| JoinPlan.PlanOverInv | src/core/qgsvectorlayerfeatureiterator.cpp:297-327 | the plan over any attribute list satisfies the invariant |
| JoinPlan.TargetsMissingSound | src/core/qgsvectorlayerfeatureiterator.cpp:319-320 | an extra field is never among the fetched attributes, and every entry's target field is fetched or extra |
| JoinPlan.PrepareJoinsPlan | src/core/qgsvectorlayerfeatureiterator.cpp:297-331 | one entry per joined layer, built from that layer's join; each entry's offset is `att - sourceLayerIndex` of its layer's first attribute; its target field and join field are the positions of the join's field names in the layer's and the joined layer's schemas; its attributes are the source indexes of all attributes its layer serves; every join attribute's layer has an entry; the extra fields are unfetched target fields, and with them every target field is fetched |
| Pass.ChangedGeometryAt | src/core/qgsvectorlayerfeatureiterator.cpp:438-440 | the changed geometry recorded for an id, and none exactly when no entry has that id |
| Pass.AddedWithId | src/core/qgsvectorlayerfeatureiterator.cpp:445-451 | an added feature carrying the id, and none exactly when no added feature has it |
| Pass.KeysBeforeNext | src/core/qgsvectorlayerfeatureiterator.cpp:215-223 | passing one more changed-geometry entry adds its id to the ids passed |
| Pass.KeysBeforeHas | src/core/qgsvectorlayerfeatureiterator.cpp:217-223 | every entry before the cursor has its id among those passed |
| Pass.ChangedIdConsidered | src/core/qgsvectorlayerfeatureiterator.cpp:223 | once the scan is through, every id with a changed geometry is considered |
| Pass.NotConsideredUnchanged | src/core/qgsvectorlayerfeatureiterator.cpp:103-106 | once the changed geometries are through, an id the provider loop does not skip has no changed geometry |
| Pass.StartPass | src/core/qgsvectorlayerfeatureiterator.cpp:272-283 | a pass starting from rewindEditBuffer's state satisfies the pass invariant |
| Pass.PassDistinct | src/core/qgsvectorlayerfeatureiterator.cpp:89-106 | in a pass, no id is emitted twice |
| Pass.PassPhases | src/core/qgsvectorlayerfeatureiterator.cpp:89-103 | in a pass, emissions come phase by phase |
| Pass.PassSources | src/core/qgsvectorlayerfeatureiterator.cpp:276 | no deleted id is emitted in a pass, and every emission carries the id of the entry it came from |
| Pass.RankBeforeLast | src/core/qgsvectorlayerfeatureiterator.cpp:89-103 | in a phase-ordered trace, no emission has a later phase than the last one |
| Pass.TraceAppend | src/core/qgsvectorlayerfeatureiterator.cpp:89-123 | a new emission of a fresh id from a phase no earlier than all before it keeps the trace well formed |
| Pass.OverlayAppend | src/core/qgsvectorlayerfeatureiterator.cpp:229-232 | advancing the cursors past a new overlay emission keeps every earlier emission behind its cursor |
| Pass.AllChangedSoFar | src/core/qgsvectorlayerfeatureiterator.cpp:89-95 | while changed geometries remain, everything emitted came from them and is considered |
| Pass.EmitChanged | src/core/qgsvectorlayerfeatureiterator.cpp:223-233 | emitting the changed geometry at the cursor, once its id is marked considered and the cursor advanced, keeps the pass invariant |
| Pass.SkipChangedTo | src/core/qgsvectorlayerfeatureiterator.cpp:215-227 | running the changed-geometry cursor forward, with every passed id considered, keeps the pass invariant |
| Pass.EmitChangedAt | src/core/qgsvectorlayerfeatureiterator.cpp:215-233 | emitting an unconsidered changed geometry found ahead of the cursor keeps the pass invariant |
| Pass.SkipAddedTo | src/core/qgsvectorlayerfeatureiterator.cpp:167-177 | running the added-feature cursor forward keeps the pass invariant |
| Pass.NoProviderYet | src/core/qgsvectorlayerfeatureiterator.cpp:97-103 | while added features remain, nothing came from the provider and no emission has the next added feature's id |
| Pass.EmitAdded | src/core/qgsvectorlayerfeatureiterator.cpp:171-183 | emitting the unconsidered added feature at the cursor, after the changed geometries, keeps the pass invariant |
| Pass.EmitAddedAt | src/core/qgsvectorlayerfeatureiterator.cpp:167-183 | emitting an unconsidered added feature found ahead of the cursor keeps the pass invariant |
| Pass.AdvanceProvider | src/core/qgsvectorlayerfeatureiterator.cpp:103-106 | moving the provider cursor forward keeps the pass invariant |
| Pass.FreshProviderId | src/core/qgsvectorlayerfeatureiterator.cpp:105-106 | an unconsidered committed record ahead of the cursor has an id not emitted yet |
| Pass.EmitProvider | src/core/qgsvectorlayerfeatureiterator.cpp:103-122 | emitting an unconsidered committed record, once the overlays are through, keeps the pass invariant |
| LayerIterator.VectorLayer.Edits | src/core/qgsvectorlayerfeatureiterator.cpp:85-87 | the layer has edits exactly when it has an edit buffer |
| LayerIterator.WidenedSubsetHasTargets | src/core/qgsvectorlayerfeatureiterator.cpp:317-331 | the widened request fetches what the joins need: under a subset, every entry's target field is in the widened subset, which keeps the subset asked for as its prefix and adds only fields it lacked; without a subset the request is kept, and every attribute is fetched |
| LayerIterator.FindAddedFeature | src/core/qgsvectorlayerfeatureiterator.cpp:445-452 | the loop returns the first added feature carrying the id, or none |
| LayerIterator.ScanAddedFeatures | src/core/qgsvectorlayerfeatureiterator.cpp:167-177 | the scan stops at the first added feature from the cursor whose id is not considered and which has no geometry or a geometry meeting the rectangle; every feature passed over is considered or misses the rectangle; without a stop, the cursor ends at the end |
| LayerIterator.ScanChangedGeometries | src/core/qgsvectorlayerfeatureiterator.cpp:215-229 | the scan stops at the first unconsidered changed geometry that meets the rectangle; the considered set gains every id the cursor passes, including the one it stops at, whatever the rectangle test says; every entry passed over was considered or misses |
| LayerIterator.FeatureIterator.AddedView | src/core/qgsvectorlayerfeatureiterator.cpp:191-206 | the emitted added feature is valid with the source's id; its geometry is the source's exactly when geometry is requested |
| LayerIterator.FeatureIterator.ChangedView | src/core/qgsvectorlayerfeatureiterator.cpp:240-268 | the emitted feature is valid with the given id, and carries the new geometry exactly when geometry is requested |
| LayerIterator.FeatureIterator.FidProviderView | src/core/qgsvectorlayerfeatureiterator.cpp:457-463 | the committed feature by id keeps its validity, id and geometry |
| LayerIterator.FeatureIterator.ProviderView | src/core/qgsvectorlayerfeatureiterator.cpp:109-120 | a committed feature keeps its validity and id; its geometry changes only when geometry is requested and the id has a changed geometry |
| LayerIterator.FeatureIterator.constructor | src/core/qgsvectorlayerfeatureiterator.cpp:23-59 | joins are planned when the layer has joins; the provider request is the (widened) request; in fid mode no provider is opened and nothing is fetched yet; otherwise a fresh provider iterator at the start and, as rewindEditBuffer leaves it, a fresh pass: the considered set is the deleted ids (empty without an edit buffer) and both overlay cursors are at the start |
| LayerIterator.FeatureIterator.PrepareJoins | src/core/qgsvectorlayerfeatureiterator.cpp:287-332 | the loop builds exactly the join plan over the fetched attributes, and widens the request's subset with the extra target fields |
| LayerIterator.FeatureIterator.RewindEditBuffer | src/core/qgsvectorlayerfeatureiterator.cpp:272-283 | the considered set restarts from the deleted ids (empty without an edit buffer), both cursors go to the start, and the pass restarts |
| LayerIterator.FeatureIterator.JoinAttributes | src/core/qgsvectorlayerfeatureiterator.cpp:115-116 | joins run only when the plan has entries, and leave the joined layers unchanged |
| LayerIterator.FeatureIterator.UseAddedFeature | src/core/qgsvectorlayerfeatureiterator.cpp:191-206 | the feature built is AddedView of the source; the iterator and the edit buffer are unchanged |
| LayerIterator.FeatureIterator.UseChangedAttributeFeature | src/core/qgsvectorlayerfeatureiterator.cpp:240-268 | the feature built is ChangedView: committed attributes (with their changes) are looked up unless an empty subset is requested |
| LayerIterator.FeatureIterator.UseFidProviderFeature | src/core/qgsvectorlayerfeatureiterator.cpp:459-463 | attribute changes, then joins, applied to the committed feature |
| LayerIterator.FeatureIterator.UseProviderFeature | src/core/qgsvectorlayerfeatureiterator.cpp:109-120 | attribute changes, joins, then the changed geometry when geometry is requested |
| LayerIterator.FeatureIterator.EmitChangedGeometry | src/core/qgsvectorlayerfeatureiterator.cpp:223-233 | the changed geometry at the index is marked considered with every id before it and emitted: the trace gains exactly its emission, the cursor moves past it, the pass invariant is kept, and the feature is that entry's ChangedView, which is admissible |
| LayerIterator.FeatureIterator.FetchNextChangedGeomFeature | src/core/qgsvectorlayerfeatureiterator.cpp:210-237 | the pass invariant is kept; on success the emission is the first changed geometry from the cursor whose id is not considered and whose geometry meets the rectangle, every entry passed over on the way was considered or misses the rectangle, and the feature is that entry's ChangedView, admissible; otherwise every entry from the cursor to the end was passed over for one of those reasons, the cursor is at the end and nothing is emitted |
| LayerIterator.FeatureIterator.FetchNextAddedFeature | src/core/qgsvectorlayerfeatureiterator.cpp:163-188 | the pass invariant is kept and the considered set is unchanged; on success the emission is the first added feature from the cursor whose id is not considered and which has no geometry or one meeting the rectangle, every feature passed over was considered or misses the rectangle, and the feature is its AddedView, admissible; otherwise every added feature from the cursor was passed over for one of those reasons and the cursor is at the end |
| LayerIterator.FeatureIterator.NextFeatureFid | src/core/qgsvectorlayerfeatureiterator.cpp:426-469 | the answer is FidAnswer, the priority order by id: a deleted id yields nothing; with geometry requested, a changed geometry wins; then an added feature with the id; then the committed record, found exactly when the provider has the id; an emitted feature is admissible and has the id |
| LayerIterator.FeatureIterator.NextProviderFeature | src/core/qgsvectorlayerfeatureiterator.cpp:103-123 | the pass invariant is kept; on success the emission is the first committed record from the provider cursor that the provider accepts and whose id is not considered, every record passed over was rejected or considered, the cursor is just past it, the feature is its ProviderView, and under a rectangle its id has no changed geometry; otherwise every record to the end was passed over for one of those reasons and nothing is emitted |
| LayerIterator.FeatureIterator.NextOverlayFeature | src/core/qgsvectorlayerfeatureiterator.cpp:85-101 | the emission comes from the changed geometries (rectangle only) or the added features, and is the next eligible entry of its source as the fetch methods state; an added feature only once every changed geometry from the cursor was passed over; when nothing is emitted both overlays were passed over to their ends |
| LayerIterator.FeatureIterator.NextCommittedFeature | src/core/qgsvectorlayerfeatureiterator.cpp:103-126 | once the overlays were passed over from their cursors, the emission is the next eligible committed record; when the provider runs dry every committed record from the cursor was passed over, the iterator closes itself and nothing is emitted; the considered set and the edit buffer are unchanged |
| LayerIterator.FeatureIterator.NextStreamFeature | src/core/qgsvectorlayerfeatureiterator.cpp:85-126 | each emission is the next eligible entry of the first source that still has one: changed geometries (rectangle only), then added features, then committed records, a later source only once the earlier ones were passed over from their cursors; at the end of the stream every source was passed over, the iterator closes itself and nothing is emitted |
| LayerIterator.FeatureIterator.NextFidOnce | src/core/qgsvectorlayerfeatureiterator.cpp:76-83 | the one request by id is answered once: the first call gives FidAnswer and sets the one-shot flag, later calls yield nothing; an answer extends the trace by its id |
| LayerIterator.FeatureIterator.NextFeature | src/core/qgsvectorlayerfeatureiterator.cpp:69-127 | the pass invariant is kept; the feature is invalid unless something is emitted, and an emitted one is admissible and extends the trace by its id; a closed iterator yields nothing; in fid mode the first call answers FidAnswer and later calls yield nothing; in streaming mode each emission is the next eligible entry of the first source that has one, and the iterator is closed exactly when nothing is emitted, after every source was passed over |
| LayerIterator.FeatureIterator.Rewind | src/core/qgsvectorlayerfeatureiterator.cpp:131-147 | refused on a closed iterator, changing nothing; otherwise the pass restarts and the pass invariant holds again, even after a drain: fid mode clears the one-shot flag, and streaming mode rewinds the provider and resets the considered set and both cursors |
| LayerIterator.FeatureIterator.Close | src/core/qgsvectorlayerfeatureiterator.cpp:149-158 | the iterator ends closed, with the provider closed and its cursor kept, keeping the pass invariant; the result is true exactly when it was open, so a second close returns false |
| Findings.UseAddedAsWritten | src/core/qgsvectorlayerfeatureiterator.cpp:197-198 | useAddedFeature as written crashes exactly when geometry is requested and the added feature has none |
| Findings.GeometrylessAddedFeatureCrashes | src/core/qgsvectorlayerfeatureiterator.cpp:175-198 | a geometry-less added feature passes the test of fetchNextAddedFeature under every filter, is found by the lookup by id, and then crashes useAddedFeature as written |
| Findings.CorrectedAgreesWhereDefined | src/core/qgsvectorlayerfeatureiterator.cpp:191-206 | the corrected copy agrees with the code as written wherever that does not crash, and always gives a valid feature with the source's id and geometry |
| Findings.PointReplyAsWritten | src/core/qgsvectorlayerfeatureiterator.cpp:254-258 | the point request as written always carries the provider request's attribute list; the reply is found exactly when the provider has the id, is valid with the id and no geometry, and when no subset was asked for every attribute in it is null |
| Findings.PointReply | src/core/qgsvectorlayerfeatureiterator.cpp:289 | the intended point request carries the list only when the request has a subset, as prepareJoins reads it: with no subset the reply is the whole committed record, with one it is the reply as written |
| Findings.AllAttributesRequestLosesCommitted | src/core/qgsvectorlayerfeatureiterator.cpp:249-258 | with every attribute requested and a committed record holding a non-null attribute, the reply as written differs from the intended one, which keeps all the record's attributes |
| Findings.ChangedViewUsesIntendedReply | src/core/qgsvectorlayerfeatureiterator.cpp:249-263 | with no subset asked for, the model's changed-geometry feature takes the intended reply's attributes, then the attribute changes and joins, and keeps its own attributes when the provider has no such id |

## Left out

- The provider attribute subset built at lines 36-46 is never assigned back to the provider request, so it has no effect. It is not modelled, and the provider request is the request copied at line 34.
- Attribute subsets are not projected by the provider: a provider feature carries all its stored attributes.
- ChangedView: with a subset requested, the committed attributes are not projected onto it, as for every provider feature. With no subset requested, it takes the intended reading of line 256, in which the point request carries every attribute (see Findings). The code as written sends an empty attribute list there. That is modelled only in `Findings.PointReplyAsWritten`.
- UseChangedAttributeFeature: it builds `ChangedView`, so the line above applies. Line 256 as written sends the provider request's attribute list even when no subset was asked for, and that list is then empty.
- The order of the edit buffer's maps (`QMap`/`QHash` iteration order) is the order of the model's sequences. Keys are unique, an invariant of the layer. The layer invariant also takes added features' ids to be distinct from every committed record's id: added features get fresh ids for the editing session. The source never checks this, because it does not put added ids into `mFetchConsidered`. `Pass.PassDistinct` (no id emitted twice in a pass) rests on it.
- Geometry intersection is an uninterpreted predicate `intersects` on the layer. Floating point and the geometry library are not modelled.
- The subset-string query language of a joined layer is an uninterpreted predicate `selects`. QVariant's validity and `toString` become a `Value` that is `Null` or a string.
- The bookkeeping inside `updateChangedAttributes` is an opaque function `changedAttributes` of the edit buffer.
- The provider's point request in `nextFeatureFid` (line 456) and in `useChangedAttributeFeature` (line 257) is `Provider.FeatureAtId`, a lookup over the committed records, and not a second provider iterator object.
- `QgsMapLayerRegistry` lookups and the `Q_ASSERT`s (lines 304 and 307) are a precondition: every join field names one of the layer's joins.
- `setFields`, which only attaches the schema to a feature, is not modelled.
- The destructor (lines 62-65) only calls `close`, which is modelled.
- Sharing a joined layer between iterators, and any concurrency, is not modelled.
- NextFeature: edits to the edit buffer during a pass are not modelled. The source carries on with the considered set and cursors it has (lines 103-106). The model's streaming methods require the pass invariant over the current edit buffer. After an edit, their guarantees hold again only from the next `Rewind`.
- NextProviderFeature: the provider's own rectangle filter is taken to be exact. The model's provider returns exactly the committed records whose geometry meets the rectangle (`Accepts`), so that committed features meet the rectangle is a property of the assumed provider, not of this iterator.
- AddJoinedAttributes: `mFetchJoinInfo` is a `QMap` keyed by the joined layer's address (line 340), so the source applies the joins in address order. `FoldJoins` applies them in the order their layers are first met in the fetched attributes. The results differ only when two joins write overlapping slots.

## Findings

| source | as written | input that shows it | evidently intended | confidence | as-written member | corrected member |
|---|---|---|---|---|---|---|
| src/core/qgsvectorlayerfeatureiterator.cpp:198 | `useAddedFeature` copies the geometry through `*src.geometry()` whenever geometry is requested, although `fetchNextAddedFeature` (lines 175-179) deliberately lets an added feature without geometry through | any request asking for geometry (no filter, a rectangle, or the feature id of line 450) over an edit buffer holding an added feature whose geometry is null | the feature is emitted without a geometry | medium; not executed | Findings.UseAddedAsWritten | LayerIterator.FeatureIterator.AddedView |
| src/core/qgsvectorlayerfeatureiterator.cpp:256 | `useChangedAttributeFeature` always sends `mProviderRequest.subsetOfAttributes()` with its point request; when every attribute was asked for, the request has no subset and that list is empty, although lines 36 and 289 read the list only under the `SubsetOfAttributes` flag | a request for all attributes, with no filter or a rectangle, over a layer whose edit buffer holds a changed geometry for a committed record with a non-null attribute, from a provider that honours the attribute list | the changed-geometry feature carries all the record's committed attributes | medium; not executed | Findings.PointReplyAsWritten | Findings.PointReply |

=== FILE: features.dfy ===
/**
 * Values shared by the vector-layer feature iterator: attribute values,
 * features, feature requests and the layer's field schema.
 */
module Features {
  /** Whether i is a position of s. Invariants about pairs of positions
      quantify through this predicate, so their facts are drawn on only
      where a proof names the positions. */
  ghost predicate InRange<T>(s: seq<T>, i: int)
  {
    0 <= i < |s|
  }


  datatype Option<T> = None | Some(value: T)

  /** Feature ids (QgsFeatureId). Committed features have the provider's ids,
      features added in the edit session have session-local ids. */
  type Fid = int

  /** A geometry is opaque here; only the layer's intersects predicate looks at it. */
  datatype Geometry = Geometry(wkb: seq<bv8>)

  /** The filter rectangle of a request. */
  datatype Rect = Rect(xMin: int, yMin: int, xMax: int, yMax: int)

  /** An attribute value: `Null` is an invalid QVariant (what a resized
      attribute vector is padded with), `Val` carries its string form. */
  datatype Value = Null | Val(text: string)

  /** A feature: id, optional geometry, positional attributes and the validity flag. */
  datatype Feature = Feature(id: Fid, geometry: Option<Geometry>, attributes: seq<Value>, valid: bool)

  /** The three filter kinds the iterator distinguishes. */
  datatype Filter = NoFilter | FilterRect(rect: Rect) | FilterFid(fid: Fid)

  /** A feature request: its filter, the NoGeometry flag, and the attribute
      subset when the SubsetOfAttributes flag is set. */
  datatype Request = Request(filter: Filter, noGeometry: bool, subset: Option<seq<int>>)

  /** Where a field of the layer comes from. A join field records which of the
      layer's joins provides it and its index in the joined layer. */
  datatype Origin = OriginUnknown | OriginProvider(providerIndex: int) | OriginJoin(join: nat, sourceIndex: int) | OriginEdit

  datatype Field = Field(name: string, origin: Origin)

  /** The attribute at position i, or an invalid value when i is out of range
      (QgsFeature::attribute). */
  function AttributeAt(attrs: seq<Value>, i: int): (v: Value)
    ensures 0 <= i < |attrs| ==> v == attrs[i]
    ensures !(0 <= i < |attrs|) ==> v == Null
  {
    if 0 <= i < |attrs| then attrs[i] else Null
  }

  /** QgsFeature::setAttribute: a write outside the vector is ignored. */
  function SetAttribute(attrs: seq<Value>, i: int, v: Value): (r: seq<Value>)
    ensures |r| == |attrs|
    ensures forall p :: 0 <= p < |r| ==> r[p] == (if p == i then v else attrs[p])
  {
    if 0 <= i < |attrs| then attrs[i := v] else attrs
  }

  /** QVector::resize: keep the first n values, pad with invalid values. */
  function Resize(attrs: seq<Value>, n: nat): (r: seq<Value>)
    ensures |r| == n
    ensures forall p :: 0 <= p < n ==> r[p] == AttributeAt(attrs, p)
  {
    if n <= |attrs| then attrs[..n] else attrs + seq(n - |attrs|, _ => Null)
  }

  /** QgsFields::fieldOrigin: unknown outside the schema. */
  function FieldOrigin(fields: seq<Field>, i: int): (o: Origin)
    ensures !(0 <= i < |fields|) ==> o == OriginUnknown
    ensures 0 <= i < |fields| ==> o == fields[i].origin
  {
    if 0 <= i < |fields| then fields[i].origin else OriginUnknown
  }

  /** QgsFields::indexFromName: the first position carrying the name, -1 when none does. */
  function IndexFromName(names: seq<string>, name: string): (r: int)
    ensures -1 <= r < |names|
    ensures r == -1 <==> name !in names
    ensures r >= 0 ==> names[r] == name && name !in names[..r]
  {
    if |names| == 0 then -1
    else if names[0] == name then 0
    else
      var k := IndexFromName(names[1..], name);
      assert names == [names[0]] + names[1..];
      if k == -1 then -1
      else
        assert names[..k + 1] == [names[0]] + names[1..][..k];
        k + 1
  }

  /** The names of a schema, in order. */
  function FieldNames(fields: seq<Field>): (names: seq<string>)
    ensures |names| == |fields|
    ensures forall i :: 0 <= i < |fields| ==> names[i] == fields[i].name
  {
    seq(|fields|, i requires 0 <= i < |fields| => fields[i].name)
  }

  /** The list of all attribute indexes of a schema (pendingAllAttributesList). */
  function AllAttributes(n: nat): (r: seq<int>)
    ensures |r| == n
    ensures forall i :: 0 <= i < n ==> r[i] == i
  {
    seq(n, i => i)
  }
}

=== FILE: findings.dfy ===
/**
 * Two places where the code as written departs from what it evidently means.
 *
 * useAddedFeature dereferences the added feature's geometry unchecked
 * whenever geometry is requested, although fetchNextAddedFeature deliberately
 * lets added features without a geometry through the rectangle test. The
 * iterator model uses the corrected copy (AddedView), which leaves such a
 * feature without geometry.
 *
 * useChangedAttributeFeature always sends the provider request's attribute
 * list with its point request, and that list is empty when every attribute
 * was asked for. A provider that honours the list then returns no committed
 * attribute. The iterator model uses the intended reply, which carries every
 * committed attribute when no subset was asked for.
 */
module Findings {
  import opened Features
  import opened Provider
  import opened Pass
  import opened LayerIterator

  /** The outcome of useAddedFeature as written: a crash on the null geometry,
      or the copied feature (before joins). */
  datatype Outcome = Crashed | Produced(f: Feature)

  /** useAddedFeature before joins, dereferencing the geometry unchecked. */
  function UseAddedAsWritten(noGeometry: bool, src: Feature, f0: Feature): (r: Outcome)
    ensures r.Crashed? <==> !noGeometry && src.geometry.None?
    ensures r.Produced? ==> r.f.valid && r.f.id == src.id && r.f.attributes == src.attributes
    ensures r.Produced? && !noGeometry ==> r.f.geometry.Some? && r.f.geometry == src.geometry
  {
    var f := f0.(id := src.id, valid := true);
    if !noGeometry && src.geometry.None? then Crashed
    else
      var f := if noGeometry then f else f.(geometry := Some(src.geometry.value));
      Produced(f.(attributes := src.attributes))
  }

  /** The input that shows it: under any request with geometry, an added
      feature without geometry passes fetchNextAddedFeature's test (with no
      filter, or a rectangle) and then crashes; the lookup by id in
      nextFeatureFid hands such a feature over without any test. */
  lemma GeometrylessAddedFeatureCrashes(filter: Filter, intersects: (Geometry, Rect) -> bool, src: Feature, f0: Feature)
    requires src.geometry.None?
    ensures AddedInRect(filter, intersects, src)
    ensures AddedWithId([src], src.id) == Some(src)
    ensures UseAddedAsWritten(false, src, f0) == Crashed
  {
  }

  /** The corrected copy agrees with the code as written wherever that does
      not crash, and is defined everywhere. */
  lemma CorrectedAgreesWhereDefined(it: FeatureIterator, src: Feature, f0: Feature)
    ensures var r := UseAddedAsWritten(it.request.noGeometry, src, f0);
            r.Produced? ==> it.AddedView(src, f0) == r.f.(attributes := it.JoinedView(src.attributes))
    ensures it.AddedView(src, f0).valid && it.AddedView(src, f0).id == src.id
    ensures !it.request.noGeometry ==> it.AddedView(src, f0).geometry == src.geometry
  {
  }

  /** What a provider that honours an attribute list delivers for a stored
      record: the listed attributes, and null for every other one. */
  function Honoured(tmp: Feature, list: seq<int>): (g: Feature)
    ensures g.id == tmp.id && g.valid == tmp.valid && g.geometry == tmp.geometry
    ensures |g.attributes| == |tmp.attributes|
    ensures forall i :: 0 <= i < |tmp.attributes| && i in list ==> g.attributes[i] == tmp.attributes[i]
    ensures forall i :: 0 <= i < |tmp.attributes| && i !in list ==> g.attributes[i] == Null
  {
    tmp.(attributes := seq(|tmp.attributes|, i requires 0 <= i < |tmp.attributes| =>
                             if i in list then tmp.attributes[i] else Null))
  }

  /** The reply to the point request of useChangedAttributeFeature as written,
      from a provider that honours the attribute list: the list sent is the
      provider request's subset, the empty list when no subset was asked for. */
  function PointReplyAsWritten(records: seq<Feature>, fid: Fid, req: Request): (r: Option<Feature>)
    ensures r.None? <==> FeatureAtId(records, fid, true).None?
    ensures r.Some? ==> r.value.valid && r.value.id == fid && r.value.geometry == None
    ensures r.Some? && req.subset.None? ==>
              forall i :: 0 <= i < |r.value.attributes| ==> r.value.attributes[i] == Null
  {
    match FeatureAtId(records, fid, true)
    case None => None
    case Some(tmp) => Some(Honoured(tmp, if req.subset.Some? then req.subset.value else []))
  }

  /** The reply as evidently intended: the attribute list goes with the point
      request only when the request has a subset, as prepareJoins reads it. */
  function PointReply(records: seq<Feature>, fid: Fid, req: Request): (r: Option<Feature>)
    ensures r.None? <==> FeatureAtId(records, fid, true).None?
    ensures req.subset.None? ==> r == FeatureAtId(records, fid, true)
    ensures req.subset.Some? ==> r == PointReplyAsWritten(records, fid, req)
  {
    match FeatureAtId(records, fid, true)
    case None => None
    case Some(tmp) => Some(if req.subset.Some? then Honoured(tmp, req.subset.value) else tmp)
  }

  /** The input that shows it: every attribute requested, and a committed
      record with the id that holds a non-null attribute. The reply as written
      loses that attribute; the intended reply keeps the record's attributes. */
  lemma AllAttributesRequestLosesCommitted(records: seq<Feature>, fid: Fid, req: Request, p: nat, k: nat)
    requires req.subset.None?
    requires PositionOfId(records, fid) == Some(p)
    requires k < |records[p].attributes| && records[p].attributes[k] != Null
    ensures PointReply(records, fid, req).Some?
    ensures PointReply(records, fid, req).value.attributes == records[p].attributes
    ensures PointReplyAsWritten(records, fid, req) != PointReply(records, fid, req)
  {
  }

  /** The iterator model's useChangedAttributeFeature uses the intended reply:
      with no subset asked for, the committed attributes it takes (before the
      changes and joins) are the intended reply's, all of the record's. */
  lemma ChangedViewUsesIntendedReply(it: FeatureIterator, fid: Fid, geom: Geometry, f0: Feature)
    requires it.request.subset.None?
    ensures var reply := PointReply(it.layer.providerRecords, fid, it.request);
            var eb := it.layer.editBuffer;
            it.ChangedView(fid, geom, f0).attributes ==
              if reply.None? then it.JoinedView(f0.attributes)
              else if eb != null then it.JoinedView(eb.UpdateChangedAttributes(reply.value).attributes)
              else it.JoinedView(reply.value.attributes)
  {
  }
}

=== FILE: iterator.dfy ===
/**
 * QgsVectorLayerFeatureIterator: one filtered stream of features merging the
 * layer's edit buffer, its data provider and its joined layers.
 */
module LayerIterator {
  import opened Features
  import opened Provider
  import opened Joins
  import opened JoinPlan
  import opened Pass

  /** The layer's edit buffer, as far as the iterator reads it. */
  class EditBuffer {
    var addedFeatures: seq<Feature>
    var changedGeometries: seq<(Fid, Geometry)>
    var deletedFeatureIds: set<Fid>
    /** updateChangedAttributes: the attribute changes recorded for an id
        applied to an attribute vector; their bookkeeping is opaque here. */
    const changedAttributes: (Fid, seq<Value>) -> seq<Value>

    constructor (added: seq<Feature>, changed: seq<(Fid, Geometry)>, deleted: set<Fid>,
                 changedAttributes: (Fid, seq<Value>) -> seq<Value>)
      ensures addedFeatures == added && changedGeometries == changed && deletedFeatureIds == deleted
      ensures this.changedAttributes == changedAttributes
    {
      addedFeatures := added;
      changedGeometries := changed;
      deletedFeatureIds := deleted;
      this.changedAttributes := changedAttributes;
    }

    /** updateChangedAttributes: only the attributes change. */
    function UpdateChangedAttributes(f: Feature): (g: Feature)
      reads this
      ensures g.id == f.id && g.geometry == f.geometry && g.valid == f.valid
      ensures g.attributes == changedAttributes(f.id, f.attributes)
    {
      f.(attributes := changedAttributes(f.id, f.attributes))
    }

    /** updateFeatureGeometry: a changed geometry replaces the feature's own. */
    function UpdateFeatureGeometry(f: Feature): (g: Feature)
      reads this
      ensures g.id == f.id && g.attributes == f.attributes && g.valid == f.valid
      ensures ChangedGeometryAt(changedGeometries, f.id).None? ==> g.geometry == f.geometry
      ensures ChangedGeometryAt(changedGeometries, f.id).Some? ==> g.geometry == ChangedGeometryAt(changedGeometries, f.id)
    {
      match ChangedGeometryAt(changedGeometries, f.id)
      case None => f
      case Some(geom) => f.(geometry := Some(geom))
    }
  }

  /** The vector layer the iterator reads: its schema (with joined fields),
      its provider's records, its edit buffer (null when not editing), its
      joins and the geometry predicate. */
  class VectorLayer {
    const fields: seq<Field>
    const providerRecords: seq<Feature>
    const editBuffer: EditBuffer?
    const joins: seq<JoinInfo>
    const intersects: (Geometry, Rect) -> bool

    constructor (fields: seq<Field>, providerRecords: seq<Feature>, editBuffer: EditBuffer?, joins: seq<JoinInfo>,
                 intersects: (Geometry, Rect) -> bool)
      ensures this.fields == fields && this.providerRecords == providerRecords && this.editBuffer == editBuffer
      ensures this.joins == joins && this.intersects == intersects
    {
      this.fields := fields;
      this.providerRecords := providerRecords;
      this.editBuffer := editBuffer;
      this.joins := joins;
      this.intersects := intersects;
    }

    /** Committed ids are unique, every join field has its join, and features
        added in the session carry ids the provider does not know. */
    ghost predicate Valid()
      reads editBuffer
    {
      && UniqueIds(providerRecords)
      && JoinOriginsResolved(fields, joins)
      && (editBuffer != null ==> EditsOk(providerRecords, Edits().value))
    }

    /** The edit buffer's contents, when the layer is being edited. */
    function Edits(): (e: Option<EditSnapshot>)
      reads editBuffer
      ensures e.Some? <==> editBuffer != null
    {
      if editBuffer == null then None
      else Some(EditSnapshot(editBuffer.addedFeatures, editBuffer.changedGeometries, editBuffer.deletedFeatureIds))
    }
  }

  /** The attributes requested (all of them without a subset). */
  function FetchAttributes(request: Request, fieldCount: nat): seq<int>
  {
    if request.subset.Some? then request.subset.value else AllAttributes(fieldCount)
  }

  /** The request after prepareJoins: a subset grows by the extra target fields. */
  function WidenRequest(request: Request, sourceJoinFields: seq<int>): (r: Request)
    ensures r.filter == request.filter && r.noGeometry == request.noGeometry
    ensures request.subset.None? ==> r.subset.None?
    ensures request.subset.Some? ==> r.subset == Some(request.subset.value + sourceJoinFields)
  {
    if request.subset.Some? then request.(subset := Some(request.subset.value + sourceJoinFields)) else request
  }

  /** prepareJoins' widened request fetches what the joins need: under a
      subset, every entry's target field is in the widened subset, which keeps
      the subset asked for as its prefix and adds only fields it lacked.
      Without a subset every attribute is fetched and the request is kept. */
  lemma WidenedSubsetHasTargets(request: Request, fields: seq<Field>, joins: seq<JoinInfo>)
    requires JoinOriginsResolved(fields, joins)
    ensures var fa := FetchAttributes(request, |fields|);
            var p := PlanOver(fa, fa, fields, joins);
            var r := WidenRequest(request, p.sourceJoinFields);
            && (request.subset.None? ==> r == request)
            && (request.subset.Some? ==>
                  && r.subset.Some?
                  && request.subset.value <= r.subset.value
                  && (forall k :: |request.subset.value| <= k < |r.subset.value| ==> r.subset.value[k] !in request.subset.value)
                  && (forall i :: 0 <= i < |p.infos| ==> p.infos[i].targetField in r.subset.value))
  {
    var fa := FetchAttributes(request, |fields|);
    PrepareJoinsPlan(fa, fields, joins);
    if request.subset.Some? {
      var p := PlanOver(fa, fa, fields, joins);
      var sub := request.subset.value + p.sourceJoinFields;
      forall k | |request.subset.value| <= k < |sub|
        ensures sub[k] !in request.subset.value
      {
        assert sub[k] == p.sourceJoinFields[k - |request.subset.value|];
      }
    }
  }

  /** The loop over the added features in nextFeatureFid: the first one
      carrying the id. */
  method FindAddedFeature(added: seq<Feature>, fid: Fid) returns (r: Option<Feature>)
    ensures r == AddedWithId(added, fid)
  {
    var i := 0;
    while i < |added|
      invariant i <= |added|
      invariant AddedWithId(added, fid) == AddedWithId(added[i..], fid)
    {
      assert added[i..][0] == added[i] && added[i..][1..] == added[i + 1..];
      if added[i].id == fid {
        return Some(added[i]);
      }
      i := i + 1;
    }
    return None;
  }

  /** Whether the rectangle test of fetchNextAddedFeature lets an added
      feature through: a feature without geometry always passes. */
  predicate AddedInRect(filter: Filter, intersects: (Geometry, Rect) -> bool, src: Feature)
  {
    !filter.FilterRect? || src.geometry.None? || intersects(src.geometry.value, filter.rect)
  }

  /** Every added feature in [lo, hi) is one fetchNextAddedFeature passes
      over: its id was considered, or its geometry misses the rectangle. */
  predicate AddedPassedOver(added: seq<Feature>, considered: set<Fid>, filter: Filter,
                            intersects: (Geometry, Rect) -> bool, lo: int, hi: int)
  {
    forall j :: lo <= j < hi && 0 <= j < |added| ==>
      added[j].id in considered || !AddedInRect(filter, intersects, added[j])
  }

  /** Every changed geometry in [lo, hi) is one fetchNextChangedGeomFeature
      passes over: its id was considered (deleted, or met earlier in the
      pass), or the geometry misses the rectangle. */
  predicate ChangedPassedOver(changed: seq<(Fid, Geometry)>, deleted: set<Fid>,
                              intersects: (Geometry, Rect) -> bool, rect: Rect, lo: int, hi: int)
  {
    forall j :: lo <= j < hi && 0 <= j < |changed| ==>
      changed[j].0 in deleted + KeysBefore(changed, j) || !intersects(changed[j].1, rect)
  }

  /** Passing over one more changed geometry extends the range. */
  lemma ChangedPassedOverStep(changed: seq<(Fid, Geometry)>, deleted: set<Fid>,
                              intersects: (Geometry, Rect) -> bool, rect: Rect, lo: nat, hi: nat)
    requires hi < |changed| && ChangedPassedOver(changed, deleted, intersects, rect, lo, hi)
    requires changed[hi].0 in deleted + KeysBefore(changed, hi) || !intersects(changed[hi].1, rect)
    ensures ChangedPassedOver(changed, deleted, intersects, rect, lo, hi + 1)
  {
  }

  /** Every committed record in [lo, hi) is one the provider loop of
      nextFeature passes over: the provider rejects it, or its id was
      considered. */
  predicate CommittedPassedOver(records: seq<Feature>, request: Request, intersects: (Geometry, Rect) -> bool,
                                considered: set<Fid>, lo: int, hi: int)
  {
    forall j :: lo <= j < hi && 0 <= j < |records| ==>
      records[j].id in considered || !Accepts(request, intersects, records[j])
  }

  /** Position `at` is where a scan of the changed geometries from cursor c0
      stops: everything before it is passed over, its id is new to the pass
      and its geometry meets the rectangle. */
  predicate NextChangedAt(changed: seq<(Fid, Geometry)>, deleted: set<Fid>,
                          intersects: (Geometry, Rect) -> bool, rect: Rect, c0: nat, at: nat)
  {
    && c0 <= at < |changed|
    && ChangedPassedOver(changed, deleted, intersects, rect, c0, at)
    && changed[at].0 !in deleted + KeysBefore(changed, at)
    && intersects(changed[at].1, rect)
  }

  /** Position `at` is where a scan of the added features from cursor a0
      stops: everything before it is passed over, its id was not considered
      and it passes the rectangle test. */
  predicate NextAddedAt(added: seq<Feature>, considered: set<Fid>, filter: Filter,
                        intersects: (Geometry, Rect) -> bool, a0: nat, at: nat)
  {
    && a0 <= at < |added|
    && AddedPassedOver(added, considered, filter, intersects, a0, at)
    && added[at].id !in considered
    && AddedInRect(filter, intersects, added[at])
  }

  /** Position `at` is where the provider loop from position p0 stops:
      everything before it is passed over, the provider accepts it and its
      id was not considered. */
  predicate NextCommittedAt(records: seq<Feature>, request: Request, intersects: (Geometry, Rect) -> bool,
                            considered: set<Fid>, p0: nat, at: nat)
  {
    && p0 <= at < |records|
    && CommittedPassedOver(records, request, intersects, considered, p0, at)
    && records[at].id !in considered
    && Accepts(request, intersects, records[at])
  }

  /** The loop of fetchNextAddedFeature: from cursor `it0` it passes over
      added features whose id was considered (a changed geometry outside the
      rectangle) and those whose geometry misses the rectangle, and stops at
      the first other one. */
  method ScanAddedFeatures(added: seq<Feature>, considered: set<Fid>, filter: Filter,
                           intersects: (Geometry, Rect) -> bool, it0: nat)
    returns (found: bool, it: nat)
    requires it0 <= |added|
    ensures it0 <= it <= |added|
    ensures found ==> it < |added| && added[it].id !in considered
                      && AddedInRect(filter, intersects, added[it])
    ensures !found ==> it == |added|
    ensures AddedPassedOver(added, considered, filter, intersects, it0, it)
  {
    it := it0;
    while it < |added|
      invariant it0 <= it <= |added|
      invariant AddedPassedOver(added, considered, filter, intersects, it0, it)
    {
      var src := added[it];
      if src.id in considered {
        it := it + 1;
        continue;
      }
      if filter.FilterRect? && src.geometry.Some? && !intersects(src.geometry.value, filter.rect) {
        it := it + 1;
        continue;
      }
      return true, it;
    }
    return false, it;
  }

  /** The loop of fetchNextChangedGeomFeature: from cursor `it0` it walks the
      changed geometries, passes over ids already considered (deleted, or met
      earlier in the pass), adds each new id to the considered set before the
      rectangle test, and stops at the first new id whose geometry meets the
      rectangle. `it` is the position it stops at (the length when none). */
  method ScanChangedGeometries(changed: seq<(Fid, Geometry)>, deleted: set<Fid>,
                               intersects: (Geometry, Rect) -> bool, rect: Rect, it0: nat)
    returns (found: bool, it: nat, considered: set<Fid>)
    requires it0 <= |changed|
    ensures it0 <= it <= |changed|
    ensures found ==> it < |changed| && changed[it].0 !in deleted + KeysBefore(changed, it)
                      && intersects(changed[it].1, rect)
                      && considered == deleted + KeysBefore(changed, it + 1)
    ensures !found ==> it == |changed| && considered == deleted + KeysBefore(changed, it)
    ensures ChangedPassedOver(changed, deleted, intersects, rect, it0, it)
  {
    it := it0;
    considered := deleted + KeysBefore(changed, it0);
    while it < |changed|
      invariant it0 <= it <= |changed|
      invariant considered == deleted + KeysBefore(changed, it)
      invariant ChangedPassedOver(changed, deleted, intersects, rect, it0, it)
    {
      var (fid, geom) := changed[it];
      KeysBeforeNext(changed, it);
      if fid in considered {
        ChangedPassedOverStep(changed, deleted, intersects, rect, it0, it);
        it := it + 1;
        continue;
      }
      considered := considered + {fid};
      if intersects(geom, rect) {
        return true, it, considered;
      }
      ChangedPassedOverStep(changed, deleted, intersects, rect, it0, it);
      it := it + 1;
    }
    return false, it, considered;
  }

  class FeatureIterator {
    const layer: VectorLayer
    /** mRequest; prepareJoins may widen its attribute subset. */
    var request: Request
    /** mProviderRequest: a copy of the (widened) request. */
    var providerRequest: Request
    var fetchJoinInfo: seq<FetchJoinInfo>
    /** mProviderIterator: not opened in fid mode. */
    var provider: ProviderIterator?
    var closed: bool
    var fetchedFid: bool
    var fetchConsidered: set<Fid>
    /** The two overlay cursors, as positions in the overlays. */
    var changedGeomIt: nat
    var addedIt: nat
    /** The features emitted since the last rewind. */
    ghost var trace: seq<Emission>

    predicate IsFidMode()
      reads this`request
    {
      request.filter.FilterFid?
    }

    predicate IsRectMode()
      reads this`request
    {
      request.filter.FilterRect?
    }

    /** What holds whatever happened to the edit buffer since the last rewind. */
    ghost predicate ValidBase()
      reads this`request, this`providerRequest, this`provider, this`closed, provider, layer.editBuffer
    {
      && layer.Valid()
      && providerRequest == request
      && (provider == null <==> IsFidMode())
      && (provider != null ==>
            && provider.Valid()
            && provider.records == layer.providerRecords
            && provider.request == providerRequest
            && provider.intersects == layer.intersects
            && provider.closed == closed)
    }

    /** The state of the current pass in fid mode: at most one emission, and
        only once the one-shot flag is set. */
    ghost predicate FidPass()
      reads this`request, this`trace, this`fetchedFid
      requires IsFidMode()
    {
      && |trace| <= 1
      && (trace != [] ==> fetchedFid && trace[0] == Emission(FromFid, request.filter.fid, 0))
    }

    /** The state of the current pass in streaming mode. */
    ghost function PassNow(): PassState
      reads this`trace, this`fetchConsidered, this`changedGeomIt, this`addedIt, this`provider, provider
      requires provider != null
    {
      PassState(trace, fetchConsidered, changedGeomIt, addedIt, provider.pos)
    }

    ghost predicate StreamPass()
      reads this`request, this`trace, this`fetchConsidered, this`changedGeomIt, this`addedIt, this`provider
      reads provider, layer.editBuffer
      requires provider != null
    {
      PassInv(layer.providerRecords, layer.Edits(), IsRectMode(), PassNow())
    }

    /** The iterator's invariant: in a pass, emitted ids are distinct, no deleted
        id is emitted, and the phases come in order. */
    ghost predicate Valid()
      reads this`request, this`providerRequest, this`provider, this`closed, this`trace, this`fetchedFid
      reads this`fetchConsidered, this`changedGeomIt, this`addedIt, provider, layer.editBuffer
    {
      && ValidBase()
      && (IsFidMode() ==> FidPass())
      && (!IsFidMode() ==> StreamPass())
    }

    lemma StreamValid()
      requires ValidBase() && !IsFidMode()
      requires PassInv(layer.providerRecords, layer.Edits(), IsRectMode(), PassNow())
      ensures Valid()
    {
    }

    /** Recording the fid answer (the one-shot flag and the trace) changes
        neither the answer, nor what is admissible, nor the base invariant.
        The snapshot holds the feature asked with, the feature answered, and
        the base invariant, the answer and admissibility before the step. */
    twostate lemma FidRecordKeeps(snap: (Feature, Feature, bool, Option<Feature>, bool))
      requires old(IsFidMode())
      requires snap.2 == old(ValidBase()) && snap.3 == old(FidAnswer(snap.0)) && snap.4 == old(Admissible(snap.1))
      requires request == old(request) && providerRequest == old(providerRequest) && fetchJoinInfo == old(fetchJoinInfo)
      requires provider == old(provider) && closed == old(closed)
      requires layer.editBuffer != null ==> unchanged(layer.editBuffer)
      requires unchanged(LayersOf(fetchJoinInfo))
      ensures ValidBase() == snap.2 && FidAnswer(snap.0) == snap.3 && Admissible(snap.1) == snap.4
    {
    }

    /** What every feature the iterator hands out satisfies: it is valid, its
        id was not deleted in the edit session, and under a rectangle its
        geometry, when it has one and geometry is requested, meets the
        rectangle. */
    ghost predicate Admissible(f: Feature)
      reads this`request, layer.editBuffer
    {
      && f.valid
      && (layer.editBuffer != null ==> f.id !in layer.editBuffer.deletedFeatureIds)
      && (IsRectMode() && !request.noGeometry ==> f.geometry.None? || layer.intersects(f.geometry.value, request.filter.rect))
    }

    /** Joining writes only to the join layers, which the invariant does not read. */
    twostate lemma ValidAcrossJoins()
      requires old(Valid())
      requires unchanged(this) && (provider != null ==> unchanged(provider))
      requires layer.editBuffer != null ==> unchanged(layer.editBuffer)
      ensures Valid()
    {
    }

    /** The attributes after addJoinedAttributes, when the iterator has joins. */
    function JoinedView(attrs: seq<Value>): seq<Value>
      reads this`request, this`fetchJoinInfo, LayersOf(fetchJoinInfo)
    {
      if |fetchJoinInfo| == 0 then attrs
      else JoinedAttributes(fetchJoinInfo, |layer.fields|, attrs, SubsetStrings(LayersOf(fetchJoinInfo)))
    }

    /** useAddedFeature: id and attributes copied, the geometry unless none is requested. */
    function AddedView(src: Feature, f0: Feature): (f: Feature)
      reads this`request, this`fetchJoinInfo, LayersOf(fetchJoinInfo)
      ensures f.valid && f.id == src.id
      ensures f.geometry == if request.noGeometry then f0.geometry else src.geometry
    {
      var f := f0.(id := src.id, valid := true);
      var f := if request.noGeometry then f else f.(geometry := src.geometry);
      f.(attributes := JoinedView(src.attributes))
    }

    /** useChangedAttributeFeature: the new geometry, and the committed
        attributes (with their changes) unless an empty subset is requested. */
    function ChangedView(fid: Fid, geom: Geometry, f0: Feature): (f: Feature)
      reads this`request, this`fetchJoinInfo, layer.editBuffer, LayersOf(fetchJoinInfo)
      ensures f.valid && f.id == fid
      ensures f.geometry == if request.noGeometry then f0.geometry else Some(geom)
    {
      var f := f0.(id := fid, valid := true);
      var f := if request.noGeometry then f else f.(geometry := Some(geom));
      var attrs :=
        if request.subset.None? || |request.subset.value| > 0 then
          match FeatureAtId(layer.providerRecords, fid, true)
          case None => f.attributes
          case Some(tmp) =>
            if layer.editBuffer != null then layer.editBuffer.UpdateChangedAttributes(tmp).attributes else tmp.attributes
        else f.attributes;
      f.(attributes := JoinedView(attrs))
    }

    /** A committed feature in fid mode: attribute changes, then joins. */
    function FidProviderView(pf: Feature): (f: Feature)
      reads this`request, this`fetchJoinInfo, layer.editBuffer, LayersOf(fetchJoinInfo)
      ensures f.valid == pf.valid && f.id == pf.id && f.geometry == pf.geometry
    {
      var f := if layer.editBuffer != null then layer.editBuffer.UpdateChangedAttributes(pf) else pf;
      f.(attributes := JoinedView(f.attributes))
    }

    /** A committed feature in streaming mode: attribute changes, joins, and
        the changed geometry when geometry is requested. */
    function ProviderView(pf: Feature): (f: Feature)
      reads this`request, this`fetchJoinInfo, layer.editBuffer, LayersOf(fetchJoinInfo)
      ensures f.valid == pf.valid && f.id == pf.id
      ensures (|| layer.editBuffer == null || request.noGeometry
               || ChangedGeometryAt(layer.editBuffer.changedGeometries, pf.id).None?) ==> f.geometry == pf.geometry
    {
      var f := FidProviderView(pf);
      if layer.editBuffer != null && !request.noGeometry then layer.editBuffer.UpdateFeatureGeometry(f) else f
    }

    /** The changed geometry a scan from cursor c0 stops at, recorded as e and
        handed out as f: every entry before it is passed over, its id is new
        to the pass and its geometry meets the rectangle. */
    ghost predicate IsNextChanged(c0: nat, e: Emission, f0: Feature, f: Feature)
      reads this`request, this`fetchJoinInfo, layer.editBuffer, LayersOf(fetchJoinInfo)
      requires layer.editBuffer != null && IsRectMode()
    {
      var eb := layer.editBuffer;
      var changed := eb.changedGeometries;
      && e.source == FromChangedGeometry
      && NextChangedAt(changed, eb.deletedFeatureIds, layer.intersects, request.filter.rect, c0, e.at)
      && e.id == changed[e.at].0 && f.id == e.id
      && f == ChangedView(changed[e.at].0, changed[e.at].1, f0)
    }

    /** The added feature a scan from cursor a0 stops at: every feature before
        it is passed over, its id was not considered and it passes the
        rectangle test. */
    ghost predicate IsNextAdded(a0: nat, e: Emission, f0: Feature, f: Feature)
      reads this`request, this`fetchConsidered, this`fetchJoinInfo, layer.editBuffer, LayersOf(fetchJoinInfo)
      requires layer.editBuffer != null
    {
      var added := layer.editBuffer.addedFeatures;
      && e.source == FromAdded
      && NextAddedAt(added, fetchConsidered, request.filter, layer.intersects, a0, e.at)
      && e.id == added[e.at].id && f.id == e.id
      && f == AddedView(added[e.at], f0)
    }

    /** The committed record the provider loop from position p0 stops at:
        every record before it is passed over, the provider accepts it and
        its id was not considered. */
    ghost predicate IsNextCommitted(p0: nat, e: Emission, f: Feature)
      reads this`request, this`fetchConsidered, this`fetchJoinInfo, layer.editBuffer, LayersOf(fetchJoinInfo)
    {
      var records := layer.providerRecords;
      && e.source == FromProvider
      && NextCommittedAt(records, request, layer.intersects, fetchConsidered, p0, e.at)
      && e.id == records[e.at].id && f.id == e.id
      && f == ProviderView(Deliver(request, records[e.at]))
    }

    /** The changed geometries are passed over to their end from cursor c0. */
    ghost predicate ChangedExhausted(c0: nat)
      reads this`request, layer.editBuffer
      requires layer.editBuffer != null && IsRectMode()
    {
      var eb := layer.editBuffer;
      ChangedPassedOver(eb.changedGeometries, eb.deletedFeatureIds, layer.intersects, request.filter.rect,
                        c0, |eb.changedGeometries|)
    }

    /** Exhaustion of the changed geometries depends only on the edit buffer
        and the request. */
    twostate lemma ChangedExhaustedKept(c0: nat)
      requires old(layer.editBuffer != null && IsRectMode()) && old(ChangedExhausted(c0))
      requires request == old(request) && unchanged(layer.editBuffer)
      ensures ChangedExhausted(c0)
    {
    }

    /** Both overlays are passed over to their ends from cursors c0 and a0
        (the changed geometries only under a rectangle). */
    ghost predicate OverlayExhausted(c0: nat, a0: nat)
      reads this`request, this`fetchConsidered, layer.editBuffer
    {
      var eb := layer.editBuffer;
      eb != null ==>
        && (IsRectMode() ==> ChangedExhausted(c0))
        && AddedPassedOver(eb.addedFeatures, fetchConsidered, request.filter, layer.intersects, a0, |eb.addedFeatures|)
    }

    /** Exhaustion of the edit buffer depends only on it, the request and the
        ids already considered; marks holds the two cursors it started from. */
    twostate lemma OverlayExhaustedKept(marks: (nat, nat))
      requires old(OverlayExhausted(marks.0, marks.1))
      requires request == old(request) && fetchConsidered == old(fetchConsidered)
      requires layer.editBuffer != null ==> unchanged(layer.editBuffer)
      ensures OverlayExhausted(marks.0, marks.1)
    {
    }

    /** One step of the stream from cursors c0, a0 and provider position p0,
        by the source of emission e: the next changed geometry (under a
        rectangle); the next added feature once the changed geometries are
        exhausted; the next committed record once both overlays are. */
    ghost predicate StreamEmission(c0: nat, a0: nat, p0: nat, e: Emission, f0: Feature, f: Feature)
      reads this`request, this`fetchConsidered, this`fetchJoinInfo, layer.editBuffer, LayersOf(fetchJoinInfo)
    {
      match e.source
      case FromChangedGeometry =>
        layer.editBuffer != null && IsRectMode() && IsNextChanged(c0, e, f0, f)
      case FromAdded =>
        && layer.editBuffer != null
        && (IsRectMode() ==> ChangedExhausted(c0))
        && IsNextAdded(a0, e, f0, f)
      case FromProvider =>
        OverlayExhausted(c0, a0) && IsNextCommitted(p0, e, f)
      case FromFid => false
    }

    /** The answer of nextFeatureFid: nothing for a deleted id; else the
        changed geometry (when geometry is requested), else the added
        feature, else the committed record, if any. */
    ghost function FidAnswer(f0: Feature): Option<Feature>
      reads this`request, this`fetchJoinInfo, layer.editBuffer, LayersOf(fetchJoinInfo)
      requires IsFidMode()
    {
      var fid := request.filter.fid;
      var eb := layer.editBuffer;
      if eb != null && fid in eb.deletedFeatureIds then None
      else if eb != null && !request.noGeometry && ChangedGeometryAt(eb.changedGeometries, fid).Some? then
        Some(ChangedView(fid, ChangedGeometryAt(eb.changedGeometries, fid).value, f0))
      else if eb != null && AddedWithId(eb.addedFeatures, fid).Some? then
        Some(AddedView(AddedWithId(eb.addedFeatures, fid).value, f0))
      else
        var committed := FeatureAtId(layer.providerRecords, fid, request.noGeometry);
        if committed.Some? then Some(FidProviderView(committed.value)) else None
    }

    constructor (layer: VectorLayer, request: Request)
      requires layer.Valid()
      ensures Valid() && !closed && trace == [] && this.layer == layer
      ensures var fa := FetchAttributes(request, |layer.fields|);
              var plan := PlanOver(fa, fa, layer.fields, layer.joins);
              && fetchJoinInfo == (if |layer.joins| > 0 then plan.infos else [])
              && this.request == (if |layer.joins| > 0 then WidenRequest(request, plan.sourceJoinFields) else request)
      ensures providerRequest == this.request
      ensures request.filter.FilterFid? ==> !fetchedFid
      ensures !request.filter.FilterFid? ==> provider != null && fresh(provider) && provider.pos == 0
      ensures !request.filter.FilterFid? && layer.editBuffer != null ==>
                fetchConsidered == layer.editBuffer.deletedFeatureIds && changedGeomIt == 0 && addedIt == 0
      ensures !request.filter.FilterFid? && layer.editBuffer == null ==> fetchConsidered == {}
    {
      this.layer := layer;
      this.request := request;
      providerRequest := request;
      fetchJoinInfo := [];
      provider := null;
      closed := false;
      fetchedFid := false;
      fetchConsidered := {};
      changedGeomIt := 0;
      addedIt := 0;
      trace := [];
      new;
      if |layer.joins| > 0 {
        PrepareJoins();
      }
      providerRequest := this.request;
      if request.filter.FilterFid? {
        fetchedFid := false;
      } else {
        provider := new ProviderIterator(layer.providerRecords, providerRequest, layer.intersects);
        RewindEditBuffer();
      }
    }

    /** prepareJoins: one FetchJoinInfo per joined layer of the fetched
        attributes, and the request's subset widened with missing target fields. */
    method PrepareJoins()
      requires layer.Valid()
      modifies this`fetchJoinInfo, this`request
      ensures var fa := FetchAttributes(old(request), |layer.fields|);
              var plan := PlanOver(fa, fa, layer.fields, layer.joins);
              && fetchJoinInfo == plan.infos
              && request == WidenRequest(old(request), plan.sourceJoinFields)
    {
      var fetchAttributes := FetchAttributes(request, |layer.fields|);
      var sourceJoinFields: seq<int> := [];
      fetchJoinInfo := [];
      var i := 0;
      while i < |fetchAttributes|
        invariant 0 <= i <= |fetchAttributes|
        invariant request == old(request)
        invariant Plan(fetchJoinInfo, sourceJoinFields) == PlanOver(fetchAttributes[..i], fetchAttributes, layer.fields, layer.joins)
      {
        var att := fetchAttributes[i];
        assert fetchAttributes[..i + 1][..i] == fetchAttributes[..i];
        match FieldOrigin(layer.fields, att) {
        case OriginJoin(j, sourceLayerIndex) => {
          var joinInfo := layer.joins[j];
          var joinLayer := joinInfo.layer;
          if InfoIndex(fetchJoinInfo, joinLayer).None? {
            var info := NewInfo(layer.fields, joinInfo, att, sourceLayerIndex);
            // for joined fields the target field is needed from the provider too
            if info.targetField !in fetchAttributes {
              sourceJoinFields := sourceJoinFields + [info.targetField];
            }
            fetchJoinInfo := fetchJoinInfo + [info];
          }
          var m := InfoIndex(fetchJoinInfo, joinLayer).value;
          fetchJoinInfo := fetchJoinInfo[m := fetchJoinInfo[m].(attributes := fetchJoinInfo[m].attributes + [sourceLayerIndex])];
        }
        case _ =>
        }
        i := i + 1;
      }
      assert fetchAttributes[..i] == fetchAttributes;
      if request.subset.Some? {
        request := request.(subset := Some(request.subset.value + sourceJoinFields));
      }
    }

    /** rewindEditBuffer: the considered set restarts from the deleted ids and
        both overlay cursors go back to the start. */
    method RewindEditBuffer()
      requires ValidBase() && !IsFidMode()
      requires provider.pos == 0
      modifies this`fetchConsidered, this`changedGeomIt, this`addedIt, this`trace
      ensures Valid() && trace == []
      ensures layer.editBuffer != null ==>
                fetchConsidered == layer.editBuffer.deletedFeatureIds && changedGeomIt == 0 && addedIt == 0
      ensures layer.editBuffer == null ==> fetchConsidered == {}
    {
      var eb := layer.editBuffer;
      fetchConsidered := if eb != null then eb.deletedFeatureIds else {};
      if eb != null {
        addedIt := 0;
        changedGeomIt := 0;
      }
      trace := [];
      if eb != null {
        StartPass(layer.providerRecords, layer.Edits(), IsRectMode());
        assert PassNow() == StartState(layer.Edits());
      }
    }

    /** addJoinedAttributes, run only when the iterator has joins. */
    method JoinAttributes(attrs: seq<Value>) returns (r: seq<Value>)
      modifies LayersOf(fetchJoinInfo)
      ensures unchanged(LayersOf(fetchJoinInfo))
      ensures r == JoinedView(attrs)
    {
      if |fetchJoinInfo| == 0 {
        return attrs;
      }
      var infos := fetchJoinInfo;
      ghost var subsets := SubsetStrings(LayersOf(infos));
      r := AddJoinedAttributes(infos, |layer.fields|, attrs);
      assert fetchJoinInfo == infos && SubsetStrings(LayersOf(infos)) == subsets;
    }

    /** useAddedFeature (with the missing-geometry case handled). */
    method UseAddedFeature(src: Feature, f0: Feature) returns (f: Feature)
      modifies LayersOf(fetchJoinInfo)
      ensures unchanged(this) && (layer.editBuffer != null ==> unchanged(layer.editBuffer))
      ensures unchanged(LayersOf(fetchJoinInfo))
      ensures f == AddedView(src, f0)
    {
      f := f0.(id := src.id, valid := true);
      if !request.noGeometry {
        f := f.(geometry := src.geometry);
      }
      f := f.(attributes := src.attributes);
      var attrs := JoinAttributes(f.attributes);
      f := f.(attributes := attrs);
    }

    /** useChangedAttributeFeature: the committed attributes are looked up by
        id (no geometry) unless an empty attribute subset is requested. */
    method UseChangedAttributeFeature(fid: Fid, geom: Geometry, f0: Feature) returns (f: Feature)
      modifies LayersOf(fetchJoinInfo)
      ensures unchanged(this) && (layer.editBuffer != null ==> unchanged(layer.editBuffer))
      ensures unchanged(LayersOf(fetchJoinInfo))
      ensures f == ChangedView(fid, geom, f0)
    {
      f := f0.(id := fid, valid := true);
      if !request.noGeometry {
        f := f.(geometry := Some(geom));
      }
      if request.subset.None? || |request.subset.value| > 0 {
        var tmp := FeatureAtId(layer.providerRecords, fid, true);
        if tmp.Some? {
          var t := tmp.value;
          if layer.editBuffer != null {
            t := layer.editBuffer.UpdateChangedAttributes(t);
          }
          f := f.(attributes := t.attributes);
        }
      }
      var attrs := JoinAttributes(f.attributes);
      f := f.(attributes := attrs);
    }

    /** The committed feature in nextFeatureFid: attribute changes, then joins. */
    method UseFidProviderFeature(pf: Feature) returns (f: Feature)
      modifies LayersOf(fetchJoinInfo)
      ensures unchanged(this) && (layer.editBuffer != null ==> unchanged(layer.editBuffer))
      ensures unchanged(LayersOf(fetchJoinInfo))
      ensures f == FidProviderView(pf)
    {
      f := pf;
      if layer.editBuffer != null {
        f := layer.editBuffer.UpdateChangedAttributes(f);
      }
      var attrs := JoinAttributes(f.attributes);
      f := f.(attributes := attrs);
    }

    /** The committed feature in the provider loop of nextFeature: attribute
        changes, joins, then the changed geometry when geometry is requested. */
    method UseProviderFeature(pf: Feature) returns (f: Feature)
      modifies LayersOf(fetchJoinInfo)
      ensures unchanged(this) && (layer.editBuffer != null ==> unchanged(layer.editBuffer))
      ensures unchanged(LayersOf(fetchJoinInfo))
      ensures f == ProviderView(pf)
    {
      f := UseFidProviderFeature(pf);
      if layer.editBuffer != null && !request.noGeometry {
        f := layer.editBuffer.UpdateFeatureGeometry(f);
      }
    }

    /** The emitting half of fetchNextChangedGeomFeature: the changed geometry
        at `it` is recorded as considered and emitted, the cursor moves past
        it, and the feature is built by useChangedAttributeFeature. */
    method EmitChangedGeometry(it: nat, considered: set<Fid>, f0: Feature) returns (f: Feature)
      requires Valid() && IsRectMode() && layer.editBuffer != null
      requires NextChangedAt(layer.editBuffer.changedGeometries, layer.editBuffer.deletedFeatureIds, layer.intersects,
                             request.filter.rect, changedGeomIt, it)
      requires considered == layer.editBuffer.deletedFeatureIds + KeysBefore(layer.editBuffer.changedGeometries, it + 1)
      modifies this`fetchConsidered, this`changedGeomIt, this`trace, LayersOf(fetchJoinInfo)
      ensures Valid() && unchanged(layer.editBuffer) && addedIt == old(addedIt)
      ensures request == old(request) && fetchJoinInfo == old(fetchJoinInfo) && provider == old(provider)
      ensures closed == old(closed)
      ensures trace == old(trace) + [Emission(FromChangedGeometry, layer.editBuffer.changedGeometries[it].0, it)]
      ensures f == ChangedView(layer.editBuffer.changedGeometries[it].0, layer.editBuffer.changedGeometries[it].1, f0)
      ensures Admissible(f)
    {
      var eb := layer.editBuffer;
      ghost var records := layer.providerRecords;
      ghost var edits := layer.Edits().value;
      ghost var s0 := PassNow();
      var (fid, geom) := eb.changedGeometries[it];
      EmitChangedAt(records, edits, s0, it);
      fetchConsidered := considered;
      trace := trace + [Emission(FromChangedGeometry, fid, it)];
      changedGeomIt := it + 1;
      assert PassNow() == s0.(trace := s0.trace + [Emission(FromChangedGeometry, fid, it)],
                              considered := edits.deleted + KeysBefore(edits.changed, it + 1), changedIt := it + 1);
      StreamValid();
      label Emitted:
      f := UseChangedAttributeFeature(fid, geom, f0);
      ValidAcrossJoins@Emitted();
    }

    /** fetchNextChangedGeomFeature: walks the changed geometries, marks each
        id as considered before the rectangle test, and emits the first one
        that intersects. */
    method FetchNextChangedGeomFeature(f0: Feature) returns (ok: bool, f: Feature)
      requires Valid() && IsRectMode() && layer.editBuffer != null
      modifies this`fetchConsidered, this`changedGeomIt, this`trace, LayersOf(fetchJoinInfo)
      ensures Valid() && unchanged(layer.editBuffer) && addedIt == old(addedIt)
      ensures request == old(request) && fetchJoinInfo == old(fetchJoinInfo) && provider == old(provider)
      ensures closed == old(closed)
      ensures !ok ==> trace == old(trace) && changedGeomIt == |layer.editBuffer.changedGeometries| && f == f0
      ensures ok ==> Admissible(f)
      ensures ok ==> |trace| == |old(trace)| + 1 && trace[..|old(trace)|] == old(trace)
      ensures ok ==> IsNextChanged(old(changedGeomIt), trace[|trace| - 1], f0, f)
      ensures !ok ==> ChangedExhausted(old(changedGeomIt))
    {
      var eb := layer.editBuffer;
      ghost var records := layer.providerRecords;
      ghost var edits := layer.Edits().value;
      ghost var s0 := PassNow();
      var found, it, considered := ScanChangedGeometries(eb.changedGeometries, eb.deletedFeatureIds,
                                                         layer.intersects, request.filter.rect, changedGeomIt);
      if found {
        assert NextChangedAt(eb.changedGeometries, eb.deletedFeatureIds, layer.intersects, request.filter.rect, s0.changedIt, it);
        f := EmitChangedGeometry(it, considered, f0);
        return true, f;
      }
      fetchConsidered := considered;
      SkipChangedTo(records, edits, s0, it);
      changedGeomIt := it;
      assert PassNow() == s0.(considered := edits.deleted + KeysBefore(edits.changed, it), changedIt := it);
      StreamValid();
      f := f0;
      return false, f;
    }

    /** fetchNextAddedFeature: walks the added features from the cursor and
        emits the first one not considered whose geometry, if any, meets the
        rectangle. Runs once the changed geometries are exhausted. */
    method FetchNextAddedFeature(f0: Feature) returns (ok: bool, f: Feature)
      requires Valid() && !IsFidMode() && layer.editBuffer != null
      requires IsRectMode() ==> changedGeomIt == |layer.editBuffer.changedGeometries|
      modifies this`addedIt, this`trace, LayersOf(fetchJoinInfo)
      ensures Valid() && unchanged(layer.editBuffer) && changedGeomIt == old(changedGeomIt)
      ensures request == old(request) && fetchJoinInfo == old(fetchJoinInfo) && provider == old(provider)
      ensures closed == old(closed)
      ensures !ok ==> trace == old(trace) && addedIt == |layer.editBuffer.addedFeatures| && f == f0
      ensures ok ==> Admissible(f)
      ensures ok ==> |trace| == |old(trace)| + 1 && trace[..|old(trace)|] == old(trace)
      ensures fetchConsidered == old(fetchConsidered)
      ensures ok ==> IsNextAdded(old(addedIt), trace[|trace| - 1], f0, f)
      ensures !ok ==> AddedPassedOver(layer.editBuffer.addedFeatures, fetchConsidered, request.filter, layer.intersects,
                                      old(addedIt), |layer.editBuffer.addedFeatures|)
    {
      var eb := layer.editBuffer;
      ghost var records := layer.providerRecords;
      ghost var edits := layer.Edits().value;
      ghost var s0 := PassNow();
      var found, it := ScanAddedFeatures(eb.addedFeatures, fetchConsidered, request.filter,
                                         layer.intersects, addedIt);
      if found {
        var src := eb.addedFeatures[it];
        EmitAddedAt(records, edits, IsRectMode(), s0, it);
        trace := trace + [Emission(FromAdded, src.id, it)];
        addedIt := it + 1;
        assert PassNow() == s0.(trace := s0.trace + [Emission(FromAdded, src.id, it)], addedIt := it + 1);
        StreamValid();
        label Emitted:
        f := UseAddedFeature(src, f0);
        ValidAcrossJoins@Emitted();
        return true, f;
      }
      SkipAddedTo(records, edits, IsRectMode(), s0, it);
      addedIt := it;
      assert PassNow() == s0.(addedIt := it);
      StreamValid();
      f := f0;
      return false, f;
    }

    /** nextFeatureFid: a deleted id yields nothing; otherwise a changed
        geometry (looked at only when geometry is requested) wins over an
        added feature, which wins over the committed record. */
    method NextFeatureFid(f0: Feature) returns (ok: bool, f: Feature)
      requires ValidBase() && IsFidMode()
      modifies LayersOf(fetchJoinInfo)
      ensures ValidBase()
      ensures !ok ==> f == f0
      ensures ok ==> Admissible(f) && f.id == request.filter.fid
      ensures var fid := request.filter.fid; var eb := layer.editBuffer;
              eb != null && fid in eb.deletedFeatureIds ==> !ok
      ensures var fid := request.filter.fid; var eb := layer.editBuffer;
              eb != null && fid !in eb.deletedFeatureIds && !request.noGeometry
              && ChangedGeometryAt(eb.changedGeometries, fid).Some? ==>
                ok && f == ChangedView(fid, ChangedGeometryAt(eb.changedGeometries, fid).value, f0)
      ensures var fid := request.filter.fid; var eb := layer.editBuffer;
              eb != null && fid !in eb.deletedFeatureIds
              && (request.noGeometry || ChangedGeometryAt(eb.changedGeometries, fid).None?)
              && AddedWithId(eb.addedFeatures, fid).Some? ==>
                ok && f == AddedView(AddedWithId(eb.addedFeatures, fid).value, f0)
      ensures var fid := request.filter.fid; var eb := layer.editBuffer;
              var committed := FeatureAtId(layer.providerRecords, fid, request.noGeometry);
              (eb == null || (fid !in eb.deletedFeatureIds
                              && (request.noGeometry || ChangedGeometryAt(eb.changedGeometries, fid).None?)
                              && AddedWithId(eb.addedFeatures, fid).None?)) ==>
                ok == committed.Some? && (ok ==> f == FidProviderView(committed.value))
      ensures ok == FidAnswer(f0).Some? && (ok ==> f == FidAnswer(f0).value)
    {
      var fid := request.filter.fid;
      var eb := layer.editBuffer;
      f := f0;
      if eb != null {
        if fid in eb.deletedFeatureIds {
          return false, f;
        }
        var geom := ChangedGeometryAt(eb.changedGeometries, fid);
        if !request.noGeometry && geom.Some? {
          f := UseChangedAttributeFeature(fid, geom.value, f0);
          return true, f;
        }
        var src := FindAddedFeature(eb.addedFeatures, fid);
        if src.Some? {
          f := UseAddedFeature(src.value, f0);
          return true, f;
        }
      }
      // a point request to the provider
      var committed := FeatureAtId(layer.providerRecords, fid, request.noGeometry);
      if committed.Some? {
        f := UseFidProviderFeature(committed.value);
        return true, f;
      }
      return false, f;
    }

    /** The provider loop of nextFeature: committed features whose id was
        considered (deleted, or met as a changed geometry) are passed over;
        the first other one is emitted with its attribute changes, joins and
        changed geometry. Runs once the overlays are exhausted. */
    method NextProviderFeature(f0: Feature) returns (ok: bool, f: Feature)
      requires Valid() && !IsFidMode() && !closed
      requires layer.editBuffer != null ==> addedIt == |layer.editBuffer.addedFeatures|
      requires layer.editBuffer != null && IsRectMode() ==> changedGeomIt == |layer.editBuffer.changedGeometries|
      modifies provider, this`trace, LayersOf(fetchJoinInfo)
      ensures Valid()
      ensures request == old(request) && fetchJoinInfo == old(fetchJoinInfo) && provider == old(provider)
      ensures fetchConsidered == old(fetchConsidered) && closed == old(closed)
      ensures layer.editBuffer != null ==> unchanged(layer.editBuffer)
      ensures !ok ==> trace == old(trace) && provider.pos == |layer.providerRecords| && !f.valid
      ensures !ok ==> CommittedPassedOver(layer.providerRecords, request, layer.intersects, fetchConsidered,
                                          old(provider.pos), |layer.providerRecords|)
      ensures ok ==> Admissible(f)
      ensures ok ==> |trace| == |old(trace)| + 1 && trace[..|old(trace)|] == old(trace)
      ensures ok ==> IsNextCommitted(old(provider.pos), trace[|trace| - 1], f)
                     && provider.pos == trace[|trace| - 1].at + 1
      ensures ok && layer.editBuffer != null && IsRectMode() ==>
                ChangedGeometryAt(layer.editBuffer.changedGeometries, f.id).None?
    {
      ghost var records := layer.providerRecords;
      ghost var edits := layer.Edits();
      ghost var rect := IsRectMode();
      ghost var s0 := PassNow();
      f := f0;
      while true
        invariant ValidBase() && trace == old(trace)
        invariant s0.pos <= provider.pos
        invariant PassInv(records, edits, rect, s0.(pos := provider.pos))
        invariant CommittedPassedOver(records, request, layer.intersects, fetchConsidered, s0.pos, provider.pos)
        decreases |records| - provider.pos
      {
        ghost var before := provider.pos;
        var more, pf := provider.NextFeature();
        if !more {
          f := pf;
          break;
        }
        AdvanceProvider(records, edits, rect, s0.(pos := before), provider.pos);
        if pf.id in fetchConsidered {
          continue;
        }
        var at := provider.pos - 1;
        assert provider.request == request && provider.records == records;
        assert pf == Deliver(request, records[at]) && Accepts(request, layer.intersects, records[at]);
        EmitProvider(records, edits, rect, s0.(pos := before), at);
        if edits.Some? && rect {
          NotConsideredUnchanged(edits.value.changed, edits.value.deleted, fetchConsidered, pf.id);
        }
        trace := trace + [Emission(FromProvider, pf.id, at)];
        StreamValid();
        label Emitted:
        f := UseProviderFeature(pf);
        ValidAcrossJoins@Emitted();
        return true, f;
      }
      AdvanceProvider(records, edits, rect, s0, provider.pos);
      StreamValid();
      return false, f;
    }

    /** The edit-buffer part of nextFeature: the changed geometries (for a
        rectangle), then the added features. */
    method NextOverlayFeature(f0: Feature) returns (ok: bool, f: Feature)
      requires Valid() && !IsFidMode() && layer.editBuffer != null
      modifies this`fetchConsidered, this`changedGeomIt, this`addedIt, this`trace, LayersOf(fetchJoinInfo)
      ensures Valid()
      ensures request == old(request) && fetchJoinInfo == old(fetchJoinInfo) && provider == old(provider)
      ensures closed == old(closed) && unchanged(layer.editBuffer)
      ensures !ok ==> f == f0 && trace == old(trace) && addedIt == |layer.editBuffer.addedFeatures|
                      && (IsRectMode() ==> changedGeomIt == |layer.editBuffer.changedGeometries|)
      ensures !ok ==> OverlayExhausted(old(changedGeomIt), old(addedIt))
      ensures ok ==> Admissible(f)
      ensures ok ==> |trace| == |old(trace)| + 1 && trace[..|old(trace)|] == old(trace)
      ensures ok ==> trace[|trace| - 1].source == FromChangedGeometry || trace[|trace| - 1].source == FromAdded
      ensures ok ==> StreamEmission(old(changedGeomIt), old(addedIt), provider.pos, trace[|trace| - 1], f0, f)
    {
      ghost var c0 := changedGeomIt;
      f := f0;
      if IsRectMode() {
        ok, f := FetchNextChangedGeomFeature(f);
        if ok {
          return ok, f;
        }
      }
      label ChangedDone:
      ok, f := FetchNextAddedFeature(f);
      if IsRectMode() {
        ChangedExhaustedKept@ChangedDone(c0);
      }
    }

    /** The committed part of nextFeature, once the edit buffer was passed
        over from cursors c0 and a0: the next accepted committed feature; at
        the end of the stream the iterator closes itself. */
    method NextCommittedFeature(ghost c0: nat, ghost a0: nat, f0: Feature) returns (ok: bool, f: Feature)
      requires Valid() && !IsFidMode() && !closed && !f0.valid
      requires layer.editBuffer != null ==> addedIt == |layer.editBuffer.addedFeatures|
      requires layer.editBuffer != null && IsRectMode() ==> changedGeomIt == |layer.editBuffer.changedGeometries|
      requires OverlayExhausted(c0, a0)
      modifies this`closed, provider, this`trace, LayersOf(fetchJoinInfo)
      ensures Valid()
      ensures request == old(request) && fetchJoinInfo == old(fetchJoinInfo) && provider == old(provider)
      ensures fetchConsidered == old(fetchConsidered) && closed == !ok
      ensures layer.editBuffer != null ==> unchanged(layer.editBuffer)
      ensures !ok ==> !f.valid && trace == old(trace)
      ensures !ok ==> OverlayExhausted(c0, a0)
                      && CommittedPassedOver(layer.providerRecords, request, layer.intersects, fetchConsidered,
                                             old(provider.pos), |layer.providerRecords|)
      ensures ok ==> Admissible(f)
      ensures ok ==> |trace| == |old(trace)| + 1 && trace[..|old(trace)|] == old(trace)
      ensures ok ==> StreamEmission(c0, a0, old(provider.pos), trace[|trace| - 1], f0, f)
    {
      label Start:
      ok, f := NextProviderFeature(f0);
      if !ok {
        var _ := Close();
      }
      OverlayExhaustedKept@Start((c0, a0));
    }

    /** The streaming part of nextFeature: the edit buffer's features, then
        the committed features; at the end of the stream the iterator closes
        itself. */
    method NextStreamFeature(f0: Feature) returns (ok: bool, f: Feature)
      requires Valid() && !IsFidMode() && !closed && !f0.valid
      modifies this`closed, this`fetchConsidered, this`changedGeomIt, this`addedIt, this`trace
      modifies provider, LayersOf(fetchJoinInfo)
      ensures Valid()
      ensures request == old(request) && fetchJoinInfo == old(fetchJoinInfo) && provider == old(provider)
      ensures !ok ==> !f.valid && trace == old(trace) && closed
      ensures !ok ==> OverlayExhausted(old(changedGeomIt), old(addedIt))
                      && CommittedPassedOver(layer.providerRecords, request, layer.intersects, fetchConsidered,
                                             old(provider.pos), |layer.providerRecords|)
      ensures ok ==> Admissible(f) && !closed
      ensures ok ==> |trace| == |old(trace)| + 1 && trace[..|old(trace)|] == old(trace)
      ensures ok ==> StreamEmission(old(changedGeomIt), old(addedIt), old(provider.pos), trace[|trace| - 1], f0, f)
    {
      ghost var c0, a0 := changedGeomIt, addedIt;
      f := f0;
      if layer.editBuffer != null {
        ok, f := NextOverlayFeature(f);
        if ok {
          return ok, f;
        }
      }
      ok, f := NextCommittedFeature(c0, a0, f);
    }

    /** nextFeature: the feature handed out is invalid unless it returns true.
        A closed iterator yields nothing; in fid mode the one request is
        answered once; otherwise the stream goes on, and the iterator closes
        itself at its end. */
    method NextFeature(f0: Feature) returns (ok: bool, f: Feature)
      requires Valid()
      modifies this`closed, this`fetchedFid, this`fetchConsidered, this`changedGeomIt, this`addedIt, this`trace
      modifies provider, LayersOf(fetchJoinInfo)
      ensures Valid() && request == old(request) && provider == old(provider)
      ensures !ok ==> !f.valid && trace == old(trace)
      ensures ok ==> Admissible(f) && |trace| == |old(trace)| + 1 && trace[..|old(trace)|] == old(trace)
                     && trace[|trace| - 1].id == f.id
      ensures old(closed) ==> !ok && closed
      ensures closed == (old(closed) || (!IsFidMode() && !ok))
      ensures IsFidMode() && !old(closed) ==> fetchedFid && (old(fetchedFid) ==> !ok)
      ensures IsFidMode() && !old(closed) && !old(fetchedFid) ==>
                ok == FidAnswer(f0.(valid := false)).Some? && (ok ==> f == FidAnswer(f0.(valid := false)).value)
      ensures !IsFidMode() && ok ==>
                StreamEmission(old(changedGeomIt), old(addedIt), old(provider.pos), trace[|trace| - 1], f0.(valid := false), f)
      ensures !IsFidMode() && !old(closed) && !ok ==>
                OverlayExhausted(old(changedGeomIt), old(addedIt))
                && CommittedPassedOver(layer.providerRecords, request, layer.intersects, fetchConsidered,
                                       old(provider.pos), |layer.providerRecords|)
    {
      f := f0.(valid := false);
      if closed {
        return false, f;
      }
      if IsFidMode() {
        ok, f := NextFidOnce(f);
        return ok, f;
      }
      ok, f := NextStreamFeature(f);
    }

    /** The fid part of nextFeature: the one request is answered once. */
    method NextFidOnce(f0: Feature) returns (ok: bool, f: Feature)
      requires Valid() && IsFidMode() && !f0.valid
      modifies this`fetchedFid, this`trace, LayersOf(fetchJoinInfo)
      ensures Valid() && fetchedFid && closed == old(closed)
      ensures !ok ==> !f.valid && trace == old(trace)
      ensures ok ==> Admissible(f) && |trace| == |old(trace)| + 1 && trace[..|old(trace)|] == old(trace)
                     && trace[|trace| - 1].id == f.id
      ensures old(fetchedFid) ==> !ok
      ensures !old(fetchedFid) ==> ok == FidAnswer(f0).Some? && (ok ==> f == FidAnswer(f0).value)
    {
      f := f0;
      if fetchedFid {
        return false, f;
      }
      ok, f := NextFeatureFid(f);
      ghost var snap := (f0, f, ValidBase(), FidAnswer(f0), Admissible(f));
      label Answered:
      fetchedFid := true;
      if ok {
        trace := trace + [Emission(FromFid, request.filter.fid, 0)];
      }
      FidRecordKeeps@Answered(snap);
    }

    /** rewind: refused once closed; in fid mode the one-shot flag is reset,
        otherwise the provider rewinds and the edit buffer cursors restart. */
    method Rewind() returns (ok: bool)
      requires ValidBase()
      modifies this`fetchedFid, this`fetchConsidered, this`changedGeomIt, this`addedIt, this`trace, provider
      ensures ValidBase() && ok == !old(closed)
      ensures ok || old(Valid()) ==> Valid()
      ensures !ok ==> trace == old(trace) && fetchedFid == old(fetchedFid)
                      && (provider != null ==> provider.pos == old(provider.pos))
      ensures ok ==> trace == []
      ensures ok && IsFidMode() ==> !fetchedFid
      ensures ok && !IsFidMode() ==> provider.pos == 0
      ensures ok && !IsFidMode() && layer.editBuffer != null ==>
                fetchConsidered == layer.editBuffer.deletedFeatureIds && changedGeomIt == 0 && addedIt == 0
    {
      if closed {
        return false;
      }
      if IsFidMode() {
        fetchedFid := false;
        trace := [];
      } else {
        var _ := provider.Rewind();
        RewindEditBuffer();
      }
      return true;
    }

    /** close: refused when already closed; otherwise closes the provider's
        iterator and marks the iterator closed. */
    method Close() returns (ok: bool)
      requires ValidBase()
      modifies this`closed, provider
      ensures ValidBase() && closed && ok == !old(closed)
      ensures old(Valid()) ==> Valid()
      ensures fetchConsidered == old(fetchConsidered) && (layer.editBuffer != null ==> unchanged(layer.editBuffer))
      ensures trace == old(trace) && request == old(request) && fetchJoinInfo == old(fetchJoinInfo) && provider == old(provider)
      ensures provider != null ==> provider.closed && provider.pos == old(provider.pos)
    {
      if closed {
        return false;
      }
      if provider != null {
        var _ := provider.Close();
      }
      closed := true;
      return true;
    }
  }
}

=== FILE: joinplan.dfy ===
/**
 * prepareJoins: which joined layers the requested attributes need, where
 * their values go, and which local target fields must be fetched as well.
 */
module JoinPlan {
  import opened Features
  import opened Joins

  /** Every join field of the schema names one of the layer's joins (the
      registry lookup and the assertions of prepareJoins never fail). */
  ghost predicate JoinOriginsResolved(fields: seq<Field>, joins: seq<JoinInfo>)
  {
    forall att :: FieldOrigin(fields, att).OriginJoin? ==> FieldOrigin(fields, att).join < |joins|
  }

  /** Whether attribute `att` is a join field served by joined layer `l`. */
  predicate IsJoinAttOf(fields: seq<Field>, joins: seq<JoinInfo>, att: int, l: JoinLayer)
    requires JoinOriginsResolved(fields, joins)
  {
    var o := FieldOrigin(fields, att);
    o.OriginJoin? && joins[o.join].layer == l
  }

  /** The new FetchJoinInfo for the first attribute `att` of a joined layer,
      whose index in that layer is `sourceLayerIndex`. */
  function NewInfo(fields: seq<Field>, joinInfo: JoinInfo, att: int, sourceLayerIndex: int): FetchJoinInfo
  {
    FetchJoinInfo(joinInfo, joinInfo.layer, att - sourceLayerIndex,
                  IndexFromName(FieldNames(fields), joinInfo.targetFieldName),
                  IndexFromName(joinInfo.layer.fieldNames, joinInfo.joinFieldName), [])
  }

  /** mFetchJoinInfo (one entry per joined layer) and the target fields that
      must be fetched in addition. The source keys the entries by the joined
      layer's address, so its QMap visits them in address order; the model
      keeps them in the order their layers are first met instead. */
  datatype Plan = Plan(infos: seq<FetchJoinInfo>, sourceJoinFields: seq<int>)

  /** The entry of a joined layer, if it has one. */
  function InfoIndex(infos: seq<FetchJoinInfo>, l: JoinLayer): (r: Option<nat>)
    ensures r.Some? ==> r.value < |infos| && infos[r.value].joinLayer == l
    ensures r.None? ==> forall i :: 0 <= i < |infos| ==> infos[i].joinLayer != l
  {
    if |infos| == 0 then None
    else if infos[|infos| - 1].joinLayer == l then Some(|infos| - 1)
    else InfoIndex(infos[..|infos| - 1], l)
  }

  /** The target fields of the entries, in entry order, that are not among
      the attributes already fetched. */
  function TargetsMissing(infos: seq<FetchJoinInfo>, fetchAttributes: seq<int>): seq<int>
  {
    if |infos| == 0 then []
    else
      var t := infos[|infos| - 1].targetField;
      TargetsMissing(infos[..|infos| - 1], fetchAttributes) + (if t in fetchAttributes then [] else [t])
  }

  /** One attribute of the loop in prepareJoins. */
  function PlanStep(p: Plan, att: int, fetchAttributes: seq<int>, fields: seq<Field>, joins: seq<JoinInfo>): Plan
    requires JoinOriginsResolved(fields, joins)
  {
    match FieldOrigin(fields, att)
    case OriginJoin(j, sourceLayerIndex) =>
      var joinInfo := joins[j];
      var p1 :=
        if InfoIndex(p.infos, joinInfo.layer).Some? then p
        else
          var info := NewInfo(fields, joinInfo, att, sourceLayerIndex);
          Plan(p.infos + [info],
               if info.targetField in fetchAttributes then p.sourceJoinFields
               else p.sourceJoinFields + [info.targetField]);
      var k := InfoIndex(p1.infos, joinInfo.layer);
      if k.None? then p1
      else
        var info := p1.infos[k.value];
        Plan(p1.infos[k.value := info.(attributes := info.attributes + [sourceLayerIndex])], p1.sourceJoinFields)
    case _ => p
  }

  /** The loop of prepareJoins over the attributes `atts`. */
  function PlanOver(atts: seq<int>, fetchAttributes: seq<int>, fields: seq<Field>, joins: seq<JoinInfo>): Plan
    requires JoinOriginsResolved(fields, joins)
  {
    if |atts| == 0 then Plan([], [])
    else PlanStep(PlanOver(atts[..|atts| - 1], fetchAttributes, fields, joins), atts[|atts| - 1], fetchAttributes, fields, joins)
  }

  /** The first attribute served by joined layer `l`. */
  function FirstJoinAttOf(atts: seq<int>, fields: seq<Field>, joins: seq<JoinInfo>, l: JoinLayer): (r: Option<nat>)
    requires JoinOriginsResolved(fields, joins)
    ensures r.Some? ==> r.value < |atts| && IsJoinAttOf(fields, joins, atts[r.value], l)
    ensures r.Some? ==> forall k :: 0 <= k < r.value ==> !IsJoinAttOf(fields, joins, atts[k], l)
    ensures r.None? ==> forall k :: 0 <= k < |atts| ==> !IsJoinAttOf(fields, joins, atts[k], l)
  {
    if |atts| == 0 then None
    else
      match FirstJoinAttOf(atts[..|atts| - 1], fields, joins, l)
      case Some(k) => Some(k)
      case None => if IsJoinAttOf(fields, joins, atts[|atts| - 1], l) then Some(|atts| - 1) else None
  }

  /** The joined-layer indexes of the attributes served by `l`, in order. */
  function SourcesOf(atts: seq<int>, fields: seq<Field>, joins: seq<JoinInfo>, l: JoinLayer): seq<int>
    requires JoinOriginsResolved(fields, joins)
  {
    if |atts| == 0 then []
    else
      var a := atts[|atts| - 1];
      SourcesOf(atts[..|atts| - 1], fields, joins, l)
        + (if IsJoinAttOf(fields, joins, a, l) then [FieldOrigin(fields, a).sourceIndex] else [])
  }

  /** The entry prepareJoins creates for layer `l` when it meets the first
      attribute `att` served by it. */
  function InfoFromAtt(fields: seq<Field>, joins: seq<JoinInfo>, att: int): FetchJoinInfo
    requires JoinOriginsResolved(fields, joins)
    requires FieldOrigin(fields, att).OriginJoin?
  {
    var o := FieldOrigin(fields, att);
    NewInfo(fields, joins[o.join], att, o.sourceIndex)
  }

  /** The entries name distinct joined layers. */
  ghost predicate DistinctLayers(infos: seq<FetchJoinInfo>)
  {
    forall i, j :: 0 <= i < j < |infos| ==> infos[i].joinLayer != infos[j].joinLayer
  }

  /** Each entry is built from the first attribute its layer serves and lists
      the joined-layer indexes of all attributes its layer serves. */
  ghost predicate EntriesFromAtts(atts: seq<int>, fields: seq<Field>, joins: seq<JoinInfo>, infos: seq<FetchJoinInfo>)
    requires JoinOriginsResolved(fields, joins)
  {
    forall i :: 0 <= i < |infos| ==>
      var first := FirstJoinAttOf(atts, fields, joins, infos[i].joinLayer);
      && first.Some?
      && infos[i].(attributes := []) == InfoFromAtt(fields, joins, atts[first.value])
      && infos[i].attributes == SourcesOf(atts, fields, joins, infos[i].joinLayer)
  }

  /** Every join attribute's layer has an entry. */
  ghost predicate CoversJoinAtts(atts: seq<int>, fields: seq<Field>, joins: seq<JoinInfo>, infos: seq<FetchJoinInfo>)
    requires JoinOriginsResolved(fields, joins)
  {
    forall k :: 0 <= k < |atts| && FieldOrigin(fields, atts[k]).OriginJoin? ==>
      InfoIndex(infos, joins[FieldOrigin(fields, atts[k]).join].layer).Some?
  }

  /** What the plan over `atts` is. */
  ghost predicate PlanInv(atts: seq<int>, fetchAttributes: seq<int>, fields: seq<Field>, joins: seq<JoinInfo>, p: Plan)
    requires JoinOriginsResolved(fields, joins)
  {
    && DistinctLayers(p.infos)
    && EntriesFromAtts(atts, fields, joins, p.infos)
    && CoversJoinAtts(atts, fields, joins, p.infos)
    && p.sourceJoinFields == TargetsMissing(p.infos, fetchAttributes)
  }

  lemma {:induction false} TargetsMissingAttributes(infos: seq<FetchJoinInfo>, k: nat, s: seq<int>, fetchAttributes: seq<int>)
    requires k < |infos|
    ensures TargetsMissing(infos[k := infos[k].(attributes := s)], fetchAttributes) == TargetsMissing(infos, fetchAttributes)
  {
    var infos' := infos[k := infos[k].(attributes := s)];
    if k < |infos| - 1 {
      assert infos'[..|infos'| - 1] == infos[..|infos| - 1][k := infos[k].(attributes := s)];
      TargetsMissingAttributes(infos[..|infos| - 1], k, s, fetchAttributes);
    } else {
      assert infos'[..|infos'| - 1] == infos[..|infos| - 1];
    }
  }

  lemma {:induction false} SourcesOfNone(atts: seq<int>, fields: seq<Field>, joins: seq<JoinInfo>, l: JoinLayer)
    requires JoinOriginsResolved(fields, joins)
    requires FirstJoinAttOf(atts, fields, joins, l).None?
    ensures SourcesOf(atts, fields, joins, l) == []
  {
    if |atts| > 0 {
      SourcesOfNone(atts[..|atts| - 1], fields, joins, l);
    }
  }

  lemma SnocOtherLayer(atts: seq<int>, a: int, fields: seq<Field>, joins: seq<JoinInfo>, l: JoinLayer)
    requires JoinOriginsResolved(fields, joins)
    requires !IsJoinAttOf(fields, joins, a, l)
    ensures FirstJoinAttOf(atts + [a], fields, joins, l) == FirstJoinAttOf(atts, fields, joins, l)
    ensures SourcesOf(atts + [a], fields, joins, l) == SourcesOf(atts, fields, joins, l)
  {
    assert (atts + [a])[..|atts|] == atts;
  }

  lemma SnocSameLayer(atts: seq<int>, a: int, fields: seq<Field>, joins: seq<JoinInfo>, l: JoinLayer)
    requires JoinOriginsResolved(fields, joins)
    requires IsJoinAttOf(fields, joins, a, l)
    ensures FirstJoinAttOf(atts + [a], fields, joins, l)
         == if FirstJoinAttOf(atts, fields, joins, l).Some? then FirstJoinAttOf(atts, fields, joins, l) else Some(|atts|)
    ensures SourcesOf(atts + [a], fields, joins, l) == SourcesOf(atts, fields, joins, l) + [FieldOrigin(fields, a).sourceIndex]
  {
    assert (atts + [a])[..|atts|] == atts;
  }

  lemma StepNonJoin(atts: seq<int>, a: int, fetchAttributes: seq<int>, fields: seq<Field>, joins: seq<JoinInfo>, p: Plan)
    requires JoinOriginsResolved(fields, joins)
    requires PlanInv(atts, fetchAttributes, fields, joins, p)
    requires !FieldOrigin(fields, a).OriginJoin?
    ensures PlanInv(atts + [a], fetchAttributes, fields, joins, PlanStep(p, a, fetchAttributes, fields, joins))
  {
    var atts' := atts + [a];
    assert PlanStep(p, a, fetchAttributes, fields, joins) == p;
    forall i | 0 <= i < |p.infos| ensures
      var first := FirstJoinAttOf(atts', fields, joins, p.infos[i].joinLayer);
      && first.Some?
      && p.infos[i].(attributes := []) == InfoFromAtt(fields, joins, atts'[first.value])
      && p.infos[i].attributes == SourcesOf(atts', fields, joins, p.infos[i].joinLayer)
    {
      SnocOtherLayer(atts, a, fields, joins, p.infos[i].joinLayer);
    }
    forall k | 0 <= k < |atts'| && FieldOrigin(fields, atts'[k]).OriginJoin?
      ensures InfoIndex(p.infos, joins[FieldOrigin(fields, atts'[k]).join].layer).Some?
    {
      assert k < |atts| && atts'[k] == atts[k];
    }
  }

  lemma KnownLayerEntries(atts: seq<int>, a: int, fetchAttributes: seq<int>, fields: seq<Field>, joins: seq<JoinInfo>, p: Plan)
    requires JoinOriginsResolved(fields, joins)
    requires PlanInv(atts, fetchAttributes, fields, joins, p)
    requires FieldOrigin(fields, a).OriginJoin?
    requires InfoIndex(p.infos, joins[FieldOrigin(fields, a).join].layer).Some?
    ensures EntriesFromAtts(atts + [a], fields, joins, PlanStep(p, a, fetchAttributes, fields, joins).infos)
  {
    var atts' := atts + [a];
    var L := joins[FieldOrigin(fields, a).join].layer;
    var m := InfoIndex(p.infos, L).value;
    var p' := PlanStep(p, a, fetchAttributes, fields, joins);
    forall i | 0 <= i < |p'.infos| ensures
      var first := FirstJoinAttOf(atts', fields, joins, p'.infos[i].joinLayer);
      && first.Some?
      && p'.infos[i].(attributes := []) == InfoFromAtt(fields, joins, atts'[first.value])
      && p'.infos[i].attributes == SourcesOf(atts', fields, joins, p'.infos[i].joinLayer)
    {
      if i == m {
        SnocSameLayer(atts, a, fields, joins, L);
      } else {
        SnocOtherLayer(atts, a, fields, joins, p.infos[i].joinLayer);
      }
    }
  }

  lemma KnownLayerCovers(atts: seq<int>, a: int, fetchAttributes: seq<int>, fields: seq<Field>, joins: seq<JoinInfo>, p: Plan)
    requires JoinOriginsResolved(fields, joins)
    requires CoversJoinAtts(atts, fields, joins, p.infos)
    requires FieldOrigin(fields, a).OriginJoin?
    requires InfoIndex(p.infos, joins[FieldOrigin(fields, a).join].layer).Some?
    ensures CoversJoinAtts(atts + [a], fields, joins, PlanStep(p, a, fetchAttributes, fields, joins).infos)
  {
    var atts' := atts + [a];
    var m := InfoIndex(p.infos, joins[FieldOrigin(fields, a).join].layer).value;
    var p' := PlanStep(p, a, fetchAttributes, fields, joins);
    forall k | 0 <= k < |atts'| && FieldOrigin(fields, atts'[k]).OriginJoin?
      ensures InfoIndex(p'.infos, joins[FieldOrigin(fields, atts'[k]).join].layer).Some?
    {
      var lk := joins[FieldOrigin(fields, atts'[k]).join].layer;
      if k < |atts| {
        assert atts'[k] == atts[k];
        var q := InfoIndex(p.infos, lk).value;
        assert p'.infos[q].joinLayer == lk;
      } else {
        assert p'.infos[m].joinLayer == lk;
      }
    }
  }

  lemma StepKnownLayer(atts: seq<int>, a: int, fetchAttributes: seq<int>, fields: seq<Field>, joins: seq<JoinInfo>, p: Plan)
    requires JoinOriginsResolved(fields, joins)
    requires PlanInv(atts, fetchAttributes, fields, joins, p)
    requires FieldOrigin(fields, a).OriginJoin?
    requires InfoIndex(p.infos, joins[FieldOrigin(fields, a).join].layer).Some?
    ensures PlanInv(atts + [a], fetchAttributes, fields, joins, PlanStep(p, a, fetchAttributes, fields, joins))
  {
    var s := FieldOrigin(fields, a).sourceIndex;
    var m := InfoIndex(p.infos, joins[FieldOrigin(fields, a).join].layer).value;
    var p' := PlanStep(p, a, fetchAttributes, fields, joins);
    assert p' == Plan(p.infos[m := p.infos[m].(attributes := p.infos[m].attributes + [s])], p.sourceJoinFields);
    TargetsMissingAttributes(p.infos, m, p.infos[m].attributes + [s], fetchAttributes);
    KnownLayerEntries(atts, a, fetchAttributes, fields, joins, p);
    KnownLayerCovers(atts, a, fetchAttributes, fields, joins, p);
  }

  lemma TargetsMissingSnoc(infos: seq<FetchJoinInfo>, info: FetchJoinInfo, fetchAttributes: seq<int>)
    ensures TargetsMissing(infos + [info], fetchAttributes)
         == TargetsMissing(infos, fetchAttributes) + (if info.targetField in fetchAttributes then [] else [info.targetField])
  {
    assert (infos + [info])[..|infos|] == infos;
  }

  lemma NewLayerShape(p: Plan, a: int, fetchAttributes: seq<int>, fields: seq<Field>, joins: seq<JoinInfo>)
    requires JoinOriginsResolved(fields, joins)
    requires FieldOrigin(fields, a).OriginJoin?
    requires InfoIndex(p.infos, joins[FieldOrigin(fields, a).join].layer).None?
    ensures var o := FieldOrigin(fields, a);
            var info := NewInfo(fields, joins[o.join], a, o.sourceIndex);
            PlanStep(p, a, fetchAttributes, fields, joins)
              == Plan(p.infos + [info.(attributes := [o.sourceIndex])],
                      if info.targetField in fetchAttributes then p.sourceJoinFields
                      else p.sourceJoinFields + [info.targetField])
  {
    var o := FieldOrigin(fields, a);
    var info := NewInfo(fields, joins[o.join], a, o.sourceIndex);
    var infos1 := p.infos + [info];
    assert InfoIndex(infos1, joins[o.join].layer) == Some(|p.infos|);
    var x := info.(attributes := [o.sourceIndex]);
    assert info.attributes == [];
    assert info.(attributes := info.attributes + [o.sourceIndex]) == x;
    assert infos1[|p.infos| := x] == p.infos + [x];
  }

  lemma NewLayerUnseen(atts: seq<int>, a: int, fetchAttributes: seq<int>, fields: seq<Field>, joins: seq<JoinInfo>, p: Plan)
    requires JoinOriginsResolved(fields, joins)
    requires CoversJoinAtts(atts, fields, joins, p.infos)
    requires FieldOrigin(fields, a).OriginJoin?
    requires InfoIndex(p.infos, joins[FieldOrigin(fields, a).join].layer).None?
    ensures FirstJoinAttOf(atts, fields, joins, joins[FieldOrigin(fields, a).join].layer).None?
    ensures SourcesOf(atts, fields, joins, joins[FieldOrigin(fields, a).join].layer) == []
  {
    var L := joins[FieldOrigin(fields, a).join].layer;
    forall k | 0 <= k < |atts| ensures !IsJoinAttOf(fields, joins, atts[k], L) {
      if FieldOrigin(fields, atts[k]).OriginJoin? {
        assert InfoIndex(p.infos, joins[FieldOrigin(fields, atts[k]).join].layer).Some?;
      }
    }
    SourcesOfNone(atts, fields, joins, L);
  }

  lemma NewLayerEntries(atts: seq<int>, a: int, fetchAttributes: seq<int>, fields: seq<Field>, joins: seq<JoinInfo>, p: Plan)
    requires JoinOriginsResolved(fields, joins)
    requires EntriesFromAtts(atts, fields, joins, p.infos)
    requires CoversJoinAtts(atts, fields, joins, p.infos)
    requires FieldOrigin(fields, a).OriginJoin?
    requires InfoIndex(p.infos, joins[FieldOrigin(fields, a).join].layer).None?
    ensures EntriesFromAtts(atts + [a], fields, joins, PlanStep(p, a, fetchAttributes, fields, joins).infos)
  {
    var atts' := atts + [a];
    var o := FieldOrigin(fields, a);
    var L := joins[o.join].layer;
    NewLayerUnseen(atts, a, fetchAttributes, fields, joins, p);
    SnocSameLayer(atts, a, fields, joins, L);
    NewLayerShape(p, a, fetchAttributes, fields, joins);
    var infos' := PlanStep(p, a, fetchAttributes, fields, joins).infos;
    forall i | 0 <= i < |infos'| ensures
      var first := FirstJoinAttOf(atts', fields, joins, infos'[i].joinLayer);
      && first.Some?
      && infos'[i].(attributes := []) == InfoFromAtt(fields, joins, atts'[first.value])
      && infos'[i].attributes == SourcesOf(atts', fields, joins, infos'[i].joinLayer)
    {
      if i < |p.infos| {
        assert infos'[i] == p.infos[i];
        SnocOtherLayer(atts, a, fields, joins, p.infos[i].joinLayer);
      } else {
        assert infos'[i] == NewInfo(fields, joins[o.join], a, o.sourceIndex).(attributes := [o.sourceIndex]);
      }
    }
  }

  lemma NewLayerCovers(atts: seq<int>, a: int, fetchAttributes: seq<int>, fields: seq<Field>, joins: seq<JoinInfo>, p: Plan)
    requires JoinOriginsResolved(fields, joins)
    requires CoversJoinAtts(atts, fields, joins, p.infos)
    requires FieldOrigin(fields, a).OriginJoin?
    requires InfoIndex(p.infos, joins[FieldOrigin(fields, a).join].layer).None?
    ensures CoversJoinAtts(atts + [a], fields, joins, PlanStep(p, a, fetchAttributes, fields, joins).infos)
  {
    var atts' := atts + [a];
    NewLayerShape(p, a, fetchAttributes, fields, joins);
    var infos' := PlanStep(p, a, fetchAttributes, fields, joins).infos;
    forall k | 0 <= k < |atts'| && FieldOrigin(fields, atts'[k]).OriginJoin?
      ensures InfoIndex(infos', joins[FieldOrigin(fields, atts'[k]).join].layer).Some?
    {
      var lk := joins[FieldOrigin(fields, atts'[k]).join].layer;
      if k < |atts| {
        assert atts'[k] == atts[k];
        var q := InfoIndex(p.infos, lk).value;
        assert infos'[q].joinLayer == lk;
      } else {
        assert infos'[|p.infos|].joinLayer == lk;
      }
    }
  }

  lemma NewLayerRest(a: int, fetchAttributes: seq<int>, fields: seq<Field>, joins: seq<JoinInfo>, p: Plan)
    requires JoinOriginsResolved(fields, joins)
    requires DistinctLayers(p.infos)
    requires p.sourceJoinFields == TargetsMissing(p.infos, fetchAttributes)
    requires FieldOrigin(fields, a).OriginJoin?
    requires InfoIndex(p.infos, joins[FieldOrigin(fields, a).join].layer).None?
    ensures DistinctLayers(PlanStep(p, a, fetchAttributes, fields, joins).infos)
    ensures PlanStep(p, a, fetchAttributes, fields, joins).sourceJoinFields
         == TargetsMissing(PlanStep(p, a, fetchAttributes, fields, joins).infos, fetchAttributes)
  {
    var o := FieldOrigin(fields, a);
    NewLayerShape(p, a, fetchAttributes, fields, joins);
    var p' := PlanStep(p, a, fetchAttributes, fields, joins);
    var info := NewInfo(fields, joins[o.join], a, o.sourceIndex);
    TargetsMissingSnoc(p.infos, info.(attributes := [o.sourceIndex]), fetchAttributes);
    forall i, j | 0 <= i < j < |p'.infos| ensures p'.infos[i].joinLayer != p'.infos[j].joinLayer {
      if j < |p.infos| {
        assert p'.infos[i] == p.infos[i] && p'.infos[j] == p.infos[j];
      } else {
        assert p'.infos[i] == p.infos[i];
      }
    }
  }

  lemma StepNewLayer(atts: seq<int>, a: int, fetchAttributes: seq<int>, fields: seq<Field>, joins: seq<JoinInfo>, p: Plan)
    requires JoinOriginsResolved(fields, joins)
    requires PlanInv(atts, fetchAttributes, fields, joins, p)
    requires FieldOrigin(fields, a).OriginJoin?
    requires InfoIndex(p.infos, joins[FieldOrigin(fields, a).join].layer).None?
    ensures PlanInv(atts + [a], fetchAttributes, fields, joins, PlanStep(p, a, fetchAttributes, fields, joins))
  {
    NewLayerEntries(atts, a, fetchAttributes, fields, joins, p);
    NewLayerCovers(atts, a, fetchAttributes, fields, joins, p);
    NewLayerRest(a, fetchAttributes, fields, joins, p);
  }

  lemma PlanStepInv(atts: seq<int>, a: int, fetchAttributes: seq<int>, fields: seq<Field>, joins: seq<JoinInfo>, p: Plan)
    requires JoinOriginsResolved(fields, joins)
    requires PlanInv(atts, fetchAttributes, fields, joins, p)
    ensures PlanInv(atts + [a], fetchAttributes, fields, joins, PlanStep(p, a, fetchAttributes, fields, joins))
  {
    var o := FieldOrigin(fields, a);
    if !o.OriginJoin? {
      StepNonJoin(atts, a, fetchAttributes, fields, joins, p);
    } else if InfoIndex(p.infos, joins[o.join].layer).Some? {
      StepKnownLayer(atts, a, fetchAttributes, fields, joins, p);
    } else {
      StepNewLayer(atts, a, fetchAttributes, fields, joins, p);
    }
  }

  lemma {:induction false} PlanOverInv(atts: seq<int>, fetchAttributes: seq<int>, fields: seq<Field>, joins: seq<JoinInfo>)
    requires JoinOriginsResolved(fields, joins)
    ensures PlanInv(atts, fetchAttributes, fields, joins, PlanOver(atts, fetchAttributes, fields, joins))
  {
    if |atts| > 0 {
      var init := atts[..|atts| - 1];
      PlanOverInv(init, fetchAttributes, fields, joins);
      PlanStepInv(init, atts[|atts| - 1], fetchAttributes, fields, joins, PlanOver(init, fetchAttributes, fields, joins));
      assert init + [atts[|atts| - 1]] == atts;
    }
  }

  lemma {:induction false} TargetsMissingSound(infos: seq<FetchJoinInfo>, fetchAttributes: seq<int>)
    ensures forall x :: x in TargetsMissing(infos, fetchAttributes) ==> x !in fetchAttributes
    ensures forall i :: 0 <= i < |infos| ==>
              infos[i].targetField in fetchAttributes || infos[i].targetField in TargetsMissing(infos, fetchAttributes)
  {
    if |infos| > 0 {
      var init := infos[..|infos| - 1];
      TargetsMissingSound(init, fetchAttributes);
      forall i | 0 <= i < |infos|
        ensures infos[i].targetField in fetchAttributes || infos[i].targetField in TargetsMissing(infos, fetchAttributes)
      {
        if i < |init| {
          assert infos[i] == init[i];
        }
      }
    }
  }

  /** prepareJoins over the attributes it fetches: exactly one entry per
      joined layer that a fetched attribute comes from; each entry's offset is
      the first such attribute's index minus its index in the joined layer,
      and it lists the joined-layer index of every such attribute, in order;
      the extra fields are target fields not fetched already, and with them
      every entry's target field is fetched. */
  lemma PrepareJoinsPlan(fetchAttributes: seq<int>, fields: seq<Field>, joins: seq<JoinInfo>)
    requires JoinOriginsResolved(fields, joins)
    ensures var p := PlanOver(fetchAttributes, fetchAttributes, fields, joins);
      && (forall i, j :: 0 <= i < j < |p.infos| ==> p.infos[i].joinLayer != p.infos[j].joinLayer)
      && (forall i :: 0 <= i < |p.infos| ==>
            var first := FirstJoinAttOf(fetchAttributes, fields, joins, p.infos[i].joinLayer);
            && first.Some?
            && p.infos[i].joinInfo == joins[FieldOrigin(fields, fetchAttributes[first.value]).join]
            && p.infos[i].joinLayer == p.infos[i].joinInfo.layer
            && p.infos[i].indexOffset == fetchAttributes[first.value] - FieldOrigin(fields, fetchAttributes[first.value]).sourceIndex
            && p.infos[i].targetField == IndexFromName(FieldNames(fields), p.infos[i].joinInfo.targetFieldName)
            && p.infos[i].joinField == IndexFromName(p.infos[i].joinLayer.fieldNames, p.infos[i].joinInfo.joinFieldName)
            && p.infos[i].attributes == SourcesOf(fetchAttributes, fields, joins, p.infos[i].joinLayer))
      && (forall k :: 0 <= k < |fetchAttributes| && FieldOrigin(fields, fetchAttributes[k]).OriginJoin? ==>
            exists i :: 0 <= i < |p.infos| && p.infos[i].joinLayer == joins[FieldOrigin(fields, fetchAttributes[k]).join].layer)
      && (forall x :: x in p.sourceJoinFields ==> x !in fetchAttributes)
      && (forall i :: 0 <= i < |p.infos| ==> p.infos[i].targetField in fetchAttributes + p.sourceJoinFields)
  {
    var p := PlanOver(fetchAttributes, fetchAttributes, fields, joins);
    PlanOverInv(fetchAttributes, fetchAttributes, fields, joins);
    TargetsMissingSound(p.infos, fetchAttributes);
    forall k | 0 <= k < |fetchAttributes| && FieldOrigin(fields, fetchAttributes[k]).OriginJoin?
      ensures exists i :: 0 <= i < |p.infos| && p.infos[i].joinLayer == joins[FieldOrigin(fields, fetchAttributes[k]).join].layer
    {
      var i := InfoIndex(p.infos, joins[FieldOrigin(fields, fetchAttributes[k]).join].layer).value;
    }
  }
}

=== FILE: joins.dfy ===
/**
 * Join enrichment: attributes of a feature that come from joined layers,
 * fetched either from a join's memory cache or by querying the joined layer
 * under a temporarily narrowed subset string.
 */
module Joins {
  import opened Features

  /** A joined vector layer: its field names, its records (attribute vectors)
      and the subset string of its provider. `selects` is how the provider
      interprets a subset string; its query language is opaque here. */
  class JoinLayer {
    const fieldNames: seq<string>
    const records: seq<seq<Value>>
    const selects: (string, seq<Value>) -> bool
    var subsetString: string

    constructor (fieldNames: seq<string>, records: seq<seq<Value>>, selects: (string, seq<Value>) -> bool, subsetString: string)
      ensures this.fieldNames == fieldNames && this.records == records && this.selects == selects
      ensures this.subsetString == subsetString
    {
      this.fieldNames := fieldNames;
      this.records := records;
      this.selects := selects;
      this.subsetString := subsetString;
    }
  }

  /** A declared join (QgsVectorJoinInfo) with its layer already resolved. */
  datatype JoinInfo = JoinInfo(layer: JoinLayer, joinFieldName: string, targetFieldName: string,
                               cachedAttributes: map<string, seq<Value>>)

  /** What the iterator keeps per joined layer: the destination offset of the
      joined values, the target field (in this layer), the join field (in the
      joined layer) and the joined-layer attributes to request. */
  datatype FetchJoinInfo = FetchJoinInfo(joinInfo: JoinInfo, joinLayer: JoinLayer, indexOffset: int,
                                         targetField: int, joinField: int, attributes: seq<int>)

  function LayersOf(infos: seq<FetchJoinInfo>): (ls: set<JoinLayer>)
    ensures forall k :: 0 <= k < |infos| ==> infos[k].joinLayer in ls
  {
    set k | 0 <= k < |infos| :: infos[k].joinLayer
  }

  /** QVariant::toString, abstracted. */
  function ToString(v: Value): string
  {
    match v
    case Null => ""
    case Val(t) => t
  }

  /** How many joined values are written: all but the join field. */
  function WrittenCount(joinField: int, n: nat): nat
  {
    if 0 <= joinField < n then n - 1 else n
  }

  /** The slot the running index gives to joined value i (i is not the join field). */
  function Slot(offset: int, joinField: int, i: nat): int
  {
    offset + (if 0 <= joinField < i then i - 1 else i)
  }

  /** The joined value that lands in slot p, if any. */
  function SourceOf(offset: int, joinField: int, p: int, n: nat): Option<nat>
  {
    var k := p - offset;
    if k < 0 then None
    else
      var i := if 0 <= joinField <= k then k + 1 else k;
      if i < n then Some(i) else None
  }

  /** The attribute vector after copying `joined` into consecutive slots from
      `offset`, skipping the join field; slots outside the vector are dropped. */
  function JoinedSlots(attrs: seq<Value>, offset: int, joinField: int, joined: seq<Value>): (r: seq<Value>)
    ensures |r| == |attrs|
    ensures forall i :: 0 <= i < |joined| && i != joinField && 0 <= Slot(offset, joinField, i) < |attrs|
                        ==> r[Slot(offset, joinField, i)] == joined[i]
    ensures forall p :: 0 <= p < |attrs| && (p < offset || p >= offset + WrittenCount(joinField, |joined|))
                        ==> r[p] == attrs[p]
  {
    seq(|attrs|, p requires 0 <= p < |attrs| =>
      match SourceOf(offset, joinField, p, |joined|)
      case Some(i) => joined[i]
      case None => attrs[p])
  }

  lemma JoinedSlotsStep(attrs: seq<Value>, offset: int, joinField: int, joined: seq<Value>, v: Value)
    ensures JoinedSlots(attrs, offset, joinField, joined + [v])
         == if |joined| == joinField then JoinedSlots(attrs, offset, joinField, joined)
            else SetAttribute(JoinedSlots(attrs, offset, joinField, joined), Slot(offset, joinField, |joined|), v)
  {
    var a := JoinedSlots(attrs, offset, joinField, joined + [v]);
    var b := JoinedSlots(attrs, offset, joinField, joined);
    if |joined| == joinField {
      forall p | 0 <= p < |attrs| ensures a[p] == b[p] {
        var s := SourceOf(offset, joinField, p, |joined| + 1);
        if s.Some? && s.value == |joined| {
          assert false;
        }
      }
    } else {
      var c := SetAttribute(b, Slot(offset, joinField, |joined|), v);
      forall p | 0 <= p < |attrs| ensures a[p] == c[p] {
        var s := SourceOf(offset, joinField, p, |joined| + 1);
        if s.Some? && s.value == |joined| {
          assert p == Slot(offset, joinField, |joined|);
        }
      }
    }
  }

  /** The slot-by-slot copy loop with its running index. */
  method WriteJoined(attrs: seq<Value>, offset: int, joinField: int, joined: seq<Value>) returns (r: seq<Value>)
    ensures r == JoinedSlots(attrs, offset, joinField, joined)
  {
    r := attrs;
    var index := offset;
    var i := 0;
    assert r == JoinedSlots(attrs, offset, joinField, joined[..0]);
    while i < |joined|
      invariant 0 <= i <= |joined|
      invariant index == Slot(offset, joinField, i)
      invariant r == JoinedSlots(attrs, offset, joinField, joined[..i])
    {
      JoinedSlotsStep(attrs, offset, joinField, joined[..i], joined[i]);
      assert joined[..i + 1] == joined[..i] + [joined[i]];
      if i != joinField {
        r := SetAttribute(r, index, joined[i]);
        index := index + 1;
      }
      i := i + 1;
    }
    assert joined[..i] == joined;
  }

  /** The joined values the memory cache holds for a target value. */
  function CachedMatch(info: FetchJoinInfo, joinValue: Value): (m: Option<seq<Value>>)
    ensures m.Some? <==> ToString(joinValue) in info.joinInfo.cachedAttributes
    ensures m.Some? ==> m.value == info.joinInfo.cachedAttributes[ToString(joinValue)]
  {
    var key := ToString(joinValue);
    if key in info.joinInfo.cachedAttributes then Some(info.joinInfo.cachedAttributes[key]) else None
  }

  /** addJoinedAttributesCached: a hit is copied into the join slots, a miss
      leaves the attributes as they are (null). */
  method AddJoinedAttributesCached(info: FetchJoinInfo, attrs: seq<Value>, joinValue: Value) returns (r: seq<Value>)
    ensures ToString(joinValue) !in info.joinInfo.cachedAttributes ==> r == attrs
    ensures ToString(joinValue) in info.joinInfo.cachedAttributes
            ==> r == JoinedSlots(attrs, info.indexOffset, info.joinField,
                                 info.joinInfo.cachedAttributes[ToString(joinValue)])
  {
    var key := ToString(joinValue);
    if key !in info.joinInfo.cachedAttributes {
      return attrs;
    }
    r := WriteJoined(attrs, info.indexOffset, info.joinField, info.joinInfo.cachedAttributes[key]);
  }

  /** The ad-hoc predicate `"field" = "value"`. */
  function EqualsClause(fieldName: string, value: string): string
  {
    "\"" + fieldName + "\" = \"" + value + "\""
  }

  /** The subset string used for a direct join: the clause alone when the
      provider had no subset string, otherwise appended with AND. */
  function ComposeSubset(orig: string, fieldName: string, value: string): (s: string)
    ensures orig == "" ==> s == EqualsClause(fieldName, value)
    ensures orig != "" ==> s == orig + " AND " + EqualsClause(fieldName, value)
    ensures s[..|orig|] == orig
  {
    var s := if orig == "" then orig else orig + " AND ";
    s + EqualsClause(fieldName, value)
  }

  /** The position of the first record the subset string selects. */
  function FirstSelectedAt(records: seq<seq<Value>>, selects: (string, seq<Value>) -> bool, subset: string): (r: Option<nat>)
    ensures r.Some? ==> r.value < |records| && selects(subset, records[r.value])
    ensures r.Some? ==> forall j :: 0 <= j < r.value ==> !selects(subset, records[j])
    ensures r.None? ==> forall j :: 0 <= j < |records| ==> !selects(subset, records[j])
  {
    if |records| == 0 then None
    else if selects(subset, records[0]) then Some(0)
    else
      match FirstSelectedAt(records[1..], selects, subset)
      case None => None
      case Some(k) => Some(k + 1)
  }

  /** The first joined record the direct query returns when the joined
      provider's own subset string is `subset`. */
  function DirectMatch(info: FetchJoinInfo, joinValue: Value, subset: string): (m: Option<seq<Value>>)
    ensures var l := info.joinLayer;
            var composed := ComposeSubset(subset, info.joinInfo.joinFieldName, ToString(joinValue));
            m.None? <==> forall j :: 0 <= j < |l.records| ==> !l.selects(composed, l.records[j])
    ensures var l := info.joinLayer;
            var composed := ComposeSubset(subset, info.joinInfo.joinFieldName, ToString(joinValue));
            m.Some? ==> exists k :: 0 <= k < |l.records| && m.value == l.records[k] && l.selects(composed, l.records[k])
                                    && forall j :: 0 <= j < k ==> !l.selects(composed, l.records[j])
  {
    var l := info.joinLayer;
    var composed := ComposeSubset(subset, info.joinInfo.joinFieldName, ToString(joinValue));
    match FirstSelectedAt(l.records, l.selects, composed)
    case None => None
    case Some(k) => Some(l.records[k])
  }

  /** addJoinedAttributesDirect: narrows the joined provider's subset string,
      takes the first match only, and always restores the subset string. */
  method AddJoinedAttributesDirect(info: FetchJoinInfo, attrs: seq<Value>, joinValue: Value) returns (r: seq<Value>)
    modifies info.joinLayer
    ensures unchanged(info.joinLayer)
    ensures DirectMatch(info, joinValue, old(info.joinLayer.subsetString)).None? ==> r == attrs
    ensures DirectMatch(info, joinValue, old(info.joinLayer.subsetString)).Some?
            ==> r == JoinedSlots(attrs, info.indexOffset, info.joinField,
                                 DirectMatch(info, joinValue, old(info.joinLayer.subsetString)).value)
  {
    var l := info.joinLayer;
    var subsetString := l.subsetString;
    var bkSubsetString := subsetString;
    subsetString := ComposeSubset(subsetString, info.joinInfo.joinFieldName, ToString(joinValue));
    l.subsetString := subsetString;

    // the query runs under the narrowed subset string; the first match wins
    var first := FirstSelectedAt(l.records, l.selects, l.subsetString);
    if first.Some? {
      r := WriteJoined(attrs, info.indexOffset, info.joinField, l.records[first.value]);
    } else {
      r := attrs;
    }

    l.subsetString := bkSubsetString;
  }

  /** The subset strings of the joined layers' providers. */
  function SubsetStrings(ls: set<JoinLayer>): (m: map<JoinLayer, string>)
    reads ls
    ensures m.Keys == ls
    ensures forall l :: l in ls ==> m[l] == l.subsetString
  {
    map l | l in ls :: l.subsetString
  }

  /** The joined values one join finds for an attribute vector, the joined
      provider having subset string `subset`: none for an invalid target value;
      the cache when it is not empty, a direct query otherwise. */
  function JoinMatch(info: FetchJoinInfo, attrs: seq<Value>, subset: string): (m: Option<seq<Value>>)
    ensures AttributeAt(attrs, info.targetField) == Null ==> m == None
  {
    var v := AttributeAt(attrs, info.targetField);
    if v == Null then None
    else if |info.joinInfo.cachedAttributes| == 0 then DirectMatch(info, v, subset)
    else CachedMatch(info, v)
  }

  /** One join applied to an attribute vector: unchanged without a match,
      otherwise the match copied into the join's slots. */
  function JoinStep(info: FetchJoinInfo, attrs: seq<Value>, subset: string): (r: seq<Value>)
  {
    match JoinMatch(info, attrs, subset)
    case None => attrs
    case Some(joined) => JoinedSlots(attrs, info.indexOffset, info.joinField, joined)
  }

  /** The joins applied in order. Every join keeps the vector's length, and a
      slot before every join's offset is never written. */
  function FoldJoins(infos: seq<FetchJoinInfo>, attrs: seq<Value>, subsets: map<JoinLayer, string>): (r: seq<Value>)
    requires LayersOf(infos) <= subsets.Keys
    ensures |r| == |attrs|
    ensures forall p :: 0 <= p < |attrs| && (forall k :: 0 <= k < |infos| ==> p < infos[k].indexOffset)
                        ==> r[p] == attrs[p]
  {
    if |infos| == 0 then attrs
    else
      var last := infos[|infos| - 1];
      assert LayersOf(infos[..|infos| - 1]) <= LayersOf(infos);
      JoinStep(last, FoldJoins(infos[..|infos| - 1], attrs, subsets), subsets[last.joinLayer])
  }

  /** The attribute vector after addJoinedAttributes: resized to the layer's
      field count, then every join applied. */
  function JoinedAttributes(infos: seq<FetchJoinInfo>, fieldCount: nat, attrs: seq<Value>,
                            subsets: map<JoinLayer, string>): (r: seq<Value>)
    requires LayersOf(infos) <= subsets.Keys
    ensures |r| == fieldCount
    ensures forall p :: 0 <= p < fieldCount && (forall k :: 0 <= k < |infos| ==> p < infos[k].indexOffset)
                        ==> r[p] == AttributeAt(attrs, p)
  {
    FoldJoins(infos, Resize(attrs, fieldCount), subsets)
  }

  /** One iteration of addJoinedAttributes' loop: skip an invalid target
      value, otherwise the direct path for an empty cache, the cached path
      for a non-empty one. */
  method ApplyJoin(info: FetchJoinInfo, attrs: seq<Value>) returns (r: seq<Value>)
    modifies info.joinLayer
    ensures unchanged(info.joinLayer)
    ensures r == JoinStep(info, attrs, info.joinLayer.subsetString)
  {
    var targetFieldValue := AttributeAt(attrs, info.targetField);
    if targetFieldValue == Null {
      return attrs;
    }
    if |info.joinInfo.cachedAttributes| == 0 {
      r := AddJoinedAttributesDirect(info, attrs, targetFieldValue);
    } else {
      r := AddJoinedAttributesCached(info, attrs, targetFieldValue);
    }
  }

  lemma FoldJoinsSnoc(infos: seq<FetchJoinInfo>, k: nat, attrs: seq<Value>, subsets: map<JoinLayer, string>)
    requires k < |infos| && LayersOf(infos) <= subsets.Keys
    ensures LayersOf(infos[..k]) <= subsets.Keys && LayersOf(infos[..k + 1]) <= subsets.Keys
    ensures FoldJoins(infos[..k + 1], attrs, subsets)
         == JoinStep(infos[k], FoldJoins(infos[..k], attrs, subsets), subsets[infos[k].joinLayer])
  {
    assert infos[..k + 1][..k] == infos[..k];
    assert LayersOf(infos[..k]) <= LayersOf(infos);
    assert LayersOf(infos[..k + 1]) <= LayersOf(infos);
  }

  /** addJoinedAttributes: resize, then each join in turn; every joined
      provider's subset string is as it was afterwards. */
  method AddJoinedAttributes(infos: seq<FetchJoinInfo>, fieldCount: nat, attrs: seq<Value>) returns (r: seq<Value>)
    modifies LayersOf(infos)
    ensures unchanged(LayersOf(infos))
    ensures r == JoinedAttributes(infos, fieldCount, attrs, old(SubsetStrings(LayersOf(infos))))
  {
    ghost var subsets := SubsetStrings(LayersOf(infos));
    var start := Resize(attrs, fieldCount);
    r := start;
    var k := 0;
    assert infos[..0] == [];
    while k < |infos|
      invariant 0 <= k <= |infos|
      invariant unchanged(LayersOf(infos))
      invariant LayersOf(infos[..k]) <= subsets.Keys
      invariant r == FoldJoins(infos[..k], start, subsets)
    {
      FoldJoinsSnoc(infos, k, start, subsets);
      r := ApplyJoin(infos[k], r);
      k := k + 1;
    }
    assert infos[..k] == infos;
  }

  /** Left-join semantics: when no join finds a match, the attribute vector
      comes out as it went in, so the join slots of a resized vector stay null. */
  lemma {:induction false} NoMatchKeepsAttributes(infos: seq<FetchJoinInfo>, attrs: seq<Value>, subsets: map<JoinLayer, string>)
    requires LayersOf(infos) <= subsets.Keys
    requires forall k :: 0 <= k < |infos| ==> JoinMatch(infos[k], attrs, subsets[infos[k].joinLayer]).None?
    ensures FoldJoins(infos, attrs, subsets) == attrs
  {
    if |infos| > 0 {
      var init := infos[..|infos| - 1];
      assert LayersOf(init) <= LayersOf(infos);
      forall k | 0 <= k < |init| ensures JoinMatch(init[k], attrs, subsets[init[k].joinLayer]).None? {
        assert init[k] == infos[k];
      }
      NoMatchKeepsAttributes(init, attrs, subsets);
    }
  }

  /** The cache holds, what a direct query under `subset` returns. */
  ghost predicate CacheMirrors(info: FetchJoinInfo, subset: string)
  {
    forall v: Value :: v != Null ==> CachedMatch(info, v) == DirectMatch(info, v, subset)
  }

  /** A cache that mirrors the joined layer gives the same attributes as
      querying the joined layer directly. */
  lemma CachedEqualsDirect(info: FetchJoinInfo, attrs: seq<Value>, subset: string)
    requires |info.joinInfo.cachedAttributes| > 0
    requires CacheMirrors(info, subset)
    ensures JoinStep(info, attrs, subset)
         == JoinStep(info.(joinInfo := info.joinInfo.(cachedAttributes := map[])), attrs, subset)
  {
    var v := AttributeAt(attrs, info.targetField);
    if v != Null {
      assert CachedMatch(info, v) == DirectMatch(info, v, subset);
      assert JoinMatch(info, attrs, subset)
          == JoinMatch(info.(joinInfo := info.joinInfo.(cachedAttributes := map[])), attrs, subset);
    }
  }
}

=== FILE: pass.dfy ===
/**
 * One pass of the vector-layer feature iterator in streaming mode, stated on
 * values: the edit buffer's contents, the cursors, the set of considered ids
 * and the emissions so far. Each step the iterator can take keeps the pass
 * invariant.
 */
module Pass {
  import opened Features
  import opened Provider

  /** The replacement geometry recorded for an id, if any. */
  function ChangedGeometryAt(changed: seq<(Fid, Geometry)>, fid: Fid): (g: Option<Geometry>)
    ensures g.Some? ==> exists k :: 0 <= k < |changed| && changed[k] == (fid, g.value)
    ensures g.None? ==> forall k :: 0 <= k < |changed| ==> changed[k].0 != fid
  {
    if |changed| == 0 then None
    else if changed[0].0 == fid then Some(changed[0].1)
    else
      var g := ChangedGeometryAt(changed[1..], fid);
      assert g.Some? ==> changed[1..][0..] == changed[1..];
      g
  }

  /** The added feature with an id, if any. */
  function AddedWithId(added: seq<Feature>, fid: Fid): (f: Option<Feature>)
    ensures f.Some? ==> f.value in added && f.value.id == fid
    ensures f.None? ==> forall k :: 0 <= k < |added| ==> added[k].id != fid
  {
    if |added| == 0 then None
    else if added[0].id == fid then Some(added[0])
    else AddedWithId(added[1..], fid)
  }

  /** The ids of the first n changed geometries. */
  function KeysBefore(changed: seq<(Fid, Geometry)>, n: nat): set<Fid>
    requires n <= |changed|
  {
    set k | 0 <= k < n :: changed[k].0
  }

  /** Moving past one more entry adds its key. */
  lemma KeysBeforeNext(changed: seq<(Fid, Geometry)>, n: nat)
    requires n < |changed|
    ensures KeysBefore(changed, n + 1) == KeysBefore(changed, n) + {changed[n].0}
  {
  }

  lemma {:induction false} KeysBeforeHas(changed: seq<(Fid, Geometry)>, n: nat, k: nat)
    requires k < n <= |changed|
    ensures changed[k].0 in KeysBefore(changed, n)
  {
    if k < n - 1 {
      KeysBeforeHas(changed, n - 1, k);
    }
  }

  /** Once the cursor has passed every entry, every changed id has been considered. */
  lemma {:induction false} ChangedIdConsidered(changed: seq<(Fid, Geometry)>, fid: Fid)
    requires ChangedGeometryAt(changed, fid).Some?
    ensures fid in KeysBefore(changed, |changed|)
  {
    var k :| 0 <= k < |changed| && changed[k] == (fid, ChangedGeometryAt(changed, fid).value);
    KeysBeforeHas(changed, |changed|, k);
  }

  /** Once every changed geometry has been considered, an id outside the
      considered set has no changed geometry. */
  lemma NotConsideredUnchanged(changed: seq<(Fid, Geometry)>, deleted: set<Fid>, considered: set<Fid>, fid: Fid)
    requires considered == deleted + KeysBefore(changed, |changed|) && fid !in considered
    ensures ChangedGeometryAt(changed, fid).None?
  {
    if ChangedGeometryAt(changed, fid).Some? {
      ChangedIdConsidered(changed, fid);
    }
  }

  /** The parts of the edit buffer a pass reads. */
  datatype EditSnapshot = EditSnapshot(added: seq<Feature>, changed: seq<(Fid, Geometry)>, deleted: set<Fid>)

  /** Added features and changed geometries are keyed by id, and added ids
      are not committed ids. */
  ghost predicate EditsOk(records: seq<Feature>, e: EditSnapshot)
  {
    && (forall i, j {:trigger InRange(e.added, i), InRange(e.added, j)} ::
          InRange(e.added, i) && InRange(e.added, j) && i < j ==> e.added[i].id != e.added[j].id)
    && (forall i, j {:trigger InRange(e.changed, i), InRange(e.changed, j)} ::
          InRange(e.changed, i) && InRange(e.changed, j) && i < j ==> e.changed[i].0 != e.changed[j].0)
    && (forall i, j {:trigger InRange(e.added, i), InRange(records, j)} ::
          InRange(e.added, i) && InRange(records, j) ==> e.added[i].id != records[j].id)
  }

  /** Where an emitted feature came from. */
  datatype Source = FromChangedGeometry | FromAdded | FromProvider | FromFid

  /** One emission: its source, its id and its position in that source. */
  datatype Emission = Emission(source: Source, id: Fid, at: nat)

  /** The phase of a source: changed geometries, then added features, then the provider. */
  function Rank(s: Source): (r: nat)
    ensures r <= 2
    ensures r == 2 <==> s == FromProvider
    ensures r == 0 <==> s == FromChangedGeometry || s == FromFid
  {
    match s
    case FromChangedGeometry => 0
    case FromFid => 0
    case FromAdded => 1
    case FromProvider => 2
  }

  /** Whether k is a position of the trace. The trace invariants quantify
      over positions through this predicate only, so their facts come into
      play where a proof names a position. */
  ghost predicate Emitted(t: seq<Emission>, k: int)
  {
    0 <= k < |t|
  }

  /** Emissions come phase by phase: changed geometries, added features, committed features. */
  ghost predicate PhaseOrdered(t: seq<Emission>)
  {
    forall i, j {:trigger Emitted(t, i), Emitted(t, j)} ::
      Emitted(t, i) && Emitted(t, j) && i < j ==> Rank(t[i].source) <= Rank(t[j].source)
  }

  /** No id is emitted twice. */
  ghost predicate DistinctIds(t: seq<Emission>)
  {
    forall i, j {:trigger Emitted(t, i), Emitted(t, j)} ::
      Emitted(t, i) && Emitted(t, j) && i < j ==> t[i].id != t[j].id
  }

  /** The iterator's pass state: emissions so far, considered ids, the
      changed-geometry and added-feature cursors, and the provider's cursor. */
  datatype PassState = PassState(trace: seq<Emission>, considered: set<Fid>, changedIt: nat, addedIt: nat, pos: nat)

  ghost predicate LastIs(t: seq<Emission>, src: Source)
  {
    t != [] && t[|t| - 1].source == src
  }

  /** A streamed emission is not by id, and a committed one lies behind the
      provider's cursor and carries its record's id. */
  ghost predicate TraceEntry(records: seq<Feature>, pos: nat, x: Emission)
  {
    && x.source != FromFid
    && (x.source == FromProvider ==> x.at < pos && pos <= |records| && records[x.at].id == x.id)
  }

  /** Emissions come phase by phase with distinct ids, none of them by id, and
      each committed one lies behind the provider's cursor. */
  ghost predicate TraceOk(records: seq<Feature>, t: seq<Emission>, pos: nat)
  {
    && PhaseOrdered(t)
    && DistinctIds(t)
    && pos <= |records|
    && (forall k {:trigger Emitted(t, k)} :: Emitted(t, k) ==> TraceEntry(records, pos, t[k]))
  }

  /** An emission during a pass over a layer being edited: its id is not
      deleted, and an overlay emission lies behind its cursor and carries the
      id of its entry. */
  ghost predicate OverlayEntry(e: EditSnapshot, changedIt: nat, addedIt: nat, x: Emission)
  {
    && x.id !in e.deleted
    && (x.source == FromChangedGeometry ==>
          x.at < changedIt && changedIt <= |e.changed| && e.changed[x.at].0 == x.id)
    && (x.source == FromAdded ==> x.at < addedIt && addedIt <= |e.added| && e.added[x.at].id == x.id)
  }

  /** What holds of the overlays during a pass over a layer being edited. */
  ghost predicate OverlayPass(e: EditSnapshot, rect: bool, s: PassState)
  {
    var t := s.trace;
    && s.changedIt <= |e.changed|
    && s.addedIt <= |e.added|
    && (rect ==> s.considered == e.deleted + KeysBefore(e.changed, s.changedIt))
    && (!rect ==> s.considered == e.deleted && s.changedIt == 0)
    && (forall k {:trigger Emitted(t, k)} :: Emitted(t, k) ==> OverlayEntry(e, s.changedIt, s.addedIt, t[k]))
    && (t != [] && !LastIs(t, FromChangedGeometry) && rect ==> s.changedIt == |e.changed|)
    && (LastIs(t, FromProvider) ==> s.addedIt == |e.added|)
  }

  /** The pass invariant: emissions come phase by phase with distinct ids,
      each emission lies behind its source's cursor, and no deleted id is
      emitted. `rect` says whether the request filters by rectangle. */
  ghost predicate PassInv(records: seq<Feature>, edits: Option<EditSnapshot>, rect: bool, s: PassState)
  {
    && TraceOk(records, s.trace, s.pos)
    && (edits.None? ==>
          && s.considered == {}
          && forall k {:trigger Emitted(s.trace, k)} :: Emitted(s.trace, k) ==> s.trace[k].source == FromProvider)
    && (edits.Some? ==> OverlayPass(edits.value, rect, s))
  }

  /** The state rewindEditBuffer and a provider rewind leave behind. */
  function StartState(edits: Option<EditSnapshot>): PassState
  {
    PassState([], if edits.Some? then edits.value.deleted else {}, 0, 0, 0)
  }

  lemma StartPass(records: seq<Feature>, edits: Option<EditSnapshot>, rect: bool)
    ensures PassInv(records, edits, rect, StartState(edits))
  {
  }

  /** In a pass no id is emitted twice. */
  lemma PassDistinct(records: seq<Feature>, edits: Option<EditSnapshot>, rect: bool, s: PassState)
    requires PassInv(records, edits, rect, s)
    ensures forall i, j :: 0 <= i < j < |s.trace| ==> s.trace[i].id != s.trace[j].id
  {
    forall i, j | 0 <= i < j < |s.trace|
      ensures s.trace[i].id != s.trace[j].id
    {
      assert Emitted(s.trace, i) && Emitted(s.trace, j);
    }
  }

  /** In a pass the phases come in order: no changed geometry after an added
      feature, no overlay after a committed feature. */
  lemma PassPhases(records: seq<Feature>, edits: Option<EditSnapshot>, rect: bool, s: PassState)
    requires PassInv(records, edits, rect, s)
    ensures forall i, j :: 0 <= i < j < |s.trace| ==> Rank(s.trace[i].source) <= Rank(s.trace[j].source)
  {
    forall i, j | 0 <= i < j < |s.trace|
      ensures Rank(s.trace[i].source) <= Rank(s.trace[j].source)
    {
      assert Emitted(s.trace, i) && Emitted(s.trace, j);
    }
  }

  /** The emission names an entry of its source that carries its id. */
  ghost predicate CarriesEntryId(records: seq<Feature>, e: EditSnapshot, x: Emission)
  {
    match x.source
    case FromChangedGeometry => x.at < |e.changed| && e.changed[x.at].0 == x.id
    case FromAdded => x.at < |e.added| && e.added[x.at].id == x.id
    case FromProvider => x.at < |records| && records[x.at].id == x.id
    case FromFid => false
  }

  /** In a pass over a layer being edited no deleted id is emitted, and every
      emission carries the id of the entry it came from. */
  lemma PassSources(records: seq<Feature>, e: EditSnapshot, rect: bool, s: PassState)
    requires PassInv(records, Some(e), rect, s)
    ensures forall k :: 0 <= k < |s.trace| ==> s.trace[k].id !in e.deleted
    ensures forall k :: 0 <= k < |s.trace| ==> CarriesEntryId(records, e, s.trace[k])
  {
    forall k | 0 <= k < |s.trace|
      ensures s.trace[k].id !in e.deleted
    {
      assert Emitted(s.trace, k);
    }
    forall k | 0 <= k < |s.trace|
      ensures CarriesEntryId(records, e, s.trace[k])
    {
      assert Emitted(s.trace, k);
    }
  }

  /** Every emission before the last one of the same or a later phase. */
  lemma RankBeforeLast(t: seq<Emission>, k: int)
    requires PhaseOrdered(t) && 0 <= k < |t|
    ensures Rank(t[k].source) <= Rank(t[|t| - 1].source)
  {
    assert Emitted(t, k) && Emitted(t, |t| - 1);
  }

  /** Appending an emission of a later or equal phase, with a new id, keeps
      the trace facts. */
  lemma TraceAppend(records: seq<Feature>, t: seq<Emission>, pos: nat, x: Emission, pos': nat)
    requires TraceOk(records, t, pos) && pos <= pos' <= |records|
    requires forall k :: 0 <= k < |t| ==> Rank(t[k].source) <= Rank(x.source) && t[k].id != x.id
    requires TraceEntry(records, pos', x)
    ensures TraceOk(records, t + [x], pos')
  {
    var t' := t + [x];
    forall i, j | Emitted(t', i) && Emitted(t', j) && i < j
      ensures Rank(t'[i].source) <= Rank(t'[j].source) && t'[i].id != t'[j].id
    {
      assert t'[i] == t[i];
      if j < |t| {
        assert t'[j] == t[j];
        assert Emitted(t, i) && Emitted(t, j);
      }
    }
    forall k | Emitted(t', k)
      ensures TraceEntry(records, pos', t'[k])
    {
      if k < |t| {
        assert t'[k] == t[k];
        assert Emitted(t, k);
      }
    }
  }

  /** Appending to a pass keeps the overlay facts of the emissions so far,
      the cursors having moved forward. */
  lemma OverlayAppend(e: EditSnapshot, t: seq<Emission>, c: nat, a: nat, x: Emission, c': nat, a': nat)
    requires forall k {:trigger Emitted(t, k)} :: Emitted(t, k) ==> OverlayEntry(e, c, a, t[k])
    requires c <= c' <= |e.changed| && a <= a' <= |e.added|
    requires OverlayEntry(e, c', a', x)
    ensures forall k {:trigger Emitted(t + [x], k)} :: Emitted(t + [x], k) ==> OverlayEntry(e, c', a', (t + [x])[k])
  {
    var t' := t + [x];
    forall k | Emitted(t', k)
      ensures OverlayEntry(e, c', a', t'[k])
    {
      if k < |t| {
        assert t'[k] == t[k];
        assert Emitted(t, k);
      }
    }
  }

  /** Before the changed geometries are exhausted, every emission of the pass
      is a changed geometry, and its id has been considered. */
  lemma AllChangedSoFar(records: seq<Feature>, e: EditSnapshot, s: PassState)
    requires PassInv(records, Some(e), true, s) && s.changedIt < |e.changed|
    ensures forall k :: 0 <= k < |s.trace| ==> s.trace[k].source == FromChangedGeometry
    ensures forall k :: 0 <= k < |s.trace| ==> s.trace[k].id in s.considered
  {
    var t := s.trace;
    forall k | 0 <= k < |t|
      ensures t[k].source == FromChangedGeometry && t[k].id in s.considered
    {
      assert Emitted(t, k);
      RankBeforeLast(t, k);
      KeysBeforeHas(e.changed, s.changedIt, t[k].at);
    }
  }

  /** Emitting a changed geometry whose id has not been considered keeps the invariant. */
  lemma EmitChanged(records: seq<Feature>, e: EditSnapshot, s: PassState)
    requires PassInv(records, Some(e), true, s) && s.changedIt < |e.changed|
    requires e.changed[s.changedIt].0 !in s.considered
    ensures var fid := e.changed[s.changedIt].0;
            PassInv(records, Some(e), true,
                    s.(trace := s.trace + [Emission(FromChangedGeometry, fid, s.changedIt)],
                       considered := s.considered + {fid}, changedIt := s.changedIt + 1))
  {
    var t := s.trace;
    var fid := e.changed[s.changedIt].0;
    var x := Emission(FromChangedGeometry, fid, s.changedIt);
    AllChangedSoFar(records, e, s);
    TraceAppend(records, t, s.pos, x, s.pos);
    OverlayAppend(e, t, s.changedIt, s.addedIt, x, s.changedIt + 1, s.addedIt);
    var s' := s.(trace := t + [x], considered := s.considered + {fid}, changedIt := s.changedIt + 1);
    assert OverlayPass(e, true, s');
  }

  /** Moving the changed-geometry cursor forward over entries that were
      skipped, each of them considered, keeps the invariant. */
  lemma SkipChangedTo(records: seq<Feature>, e: EditSnapshot, s: PassState, it: nat)
    requires PassInv(records, Some(e), true, s) && s.changedIt <= it <= |e.changed|
    ensures PassInv(records, Some(e), true, s.(considered := e.deleted + KeysBefore(e.changed, it), changedIt := it))
  {
    var s' := s.(considered := e.deleted + KeysBefore(e.changed, it), changedIt := it);
    forall k | Emitted(s.trace, k)
      ensures OverlayEntry(e, it, s.addedIt, s.trace[k])
    {
    }
    assert OverlayPass(e, true, s');
  }

  /** Emitting the changed geometry under the cursor, its id not yet
      considered, keeps the invariant; the id joins the considered set. */
  lemma EmitChangedAt(records: seq<Feature>, e: EditSnapshot, s: PassState, it: nat)
    requires PassInv(records, Some(e), true, s) && s.changedIt <= it < |e.changed|
    requires e.changed[it].0 !in e.deleted + KeysBefore(e.changed, it)
    ensures PassInv(records, Some(e), true,
                    s.(trace := s.trace + [Emission(FromChangedGeometry, e.changed[it].0, it)],
                       considered := e.deleted + KeysBefore(e.changed, it + 1), changedIt := it + 1))
  {
    SkipChangedTo(records, e, s, it);
    EmitChanged(records, e, s.(considered := e.deleted + KeysBefore(e.changed, it), changedIt := it));
  }

  /** Moving the added-feature cursor forward over skipped entries keeps
      the invariant. */
  lemma SkipAddedTo(records: seq<Feature>, e: EditSnapshot, rect: bool, s: PassState, it: nat)
    requires PassInv(records, Some(e), rect, s) && s.addedIt <= it <= |e.added|
    ensures PassInv(records, Some(e), rect, s.(addedIt := it))
  {
    var s' := s.(addedIt := it);
    forall k | Emitted(s.trace, k)
      ensures OverlayEntry(e, s.changedIt, it, s.trace[k])
    {
    }
    assert OverlayPass(e, rect, s');
  }

  /** Before the added features are exhausted no committed feature has been
      emitted, and every emitted id is considered or an earlier added one. */
  lemma NoProviderYet(records: seq<Feature>, e: EditSnapshot, rect: bool, s: PassState)
    requires EditsOk(records, e)
    requires PassInv(records, Some(e), rect, s) && s.addedIt < |e.added|
    requires e.added[s.addedIt].id !in s.considered
    ensures forall k :: 0 <= k < |s.trace| ==> Rank(s.trace[k].source) <= 1
    ensures forall k :: 0 <= k < |s.trace| ==> s.trace[k].id != e.added[s.addedIt].id
  {
    var t := s.trace;
    var fid := e.added[s.addedIt].id;
    forall k | 0 <= k < |t|
      ensures t[k].source != FromProvider
    {
      RankBeforeLast(t, k);
      if t[k].source == FromProvider {
        assert LastIs(t, FromProvider);
      }
    }
    forall k | 0 <= k < |t|
      ensures t[k].id != fid
    {
      assert Emitted(t, k);
      match t[k].source
      case FromChangedGeometry =>
        if rect {
          KeysBeforeHas(e.changed, s.changedIt, t[k].at);
        }
      case FromAdded =>
        assert t[k].at < s.addedIt;
        assert InRange(e.added, t[k].at) && InRange(e.added, s.addedIt);
      case _ =>
    }
  }

  /** Emitting an added feature not yet considered, once the changed
      geometries are exhausted, keeps the invariant. */
  lemma EmitAdded(records: seq<Feature>, e: EditSnapshot, rect: bool, s: PassState)
    requires EditsOk(records, e)
    requires PassInv(records, Some(e), rect, s) && s.addedIt < |e.added|
    requires e.added[s.addedIt].id !in s.considered
    requires rect ==> s.changedIt == |e.changed|
    ensures PassInv(records, Some(e), rect,
                    s.(trace := s.trace + [Emission(FromAdded, e.added[s.addedIt].id, s.addedIt)],
                       addedIt := s.addedIt + 1))
  {
    var t := s.trace;
    var x := Emission(FromAdded, e.added[s.addedIt].id, s.addedIt);
    NoProviderYet(records, e, rect, s);
    TraceAppend(records, t, s.pos, x, s.pos);
    OverlayAppend(e, t, s.changedIt, s.addedIt, x, s.changedIt, s.addedIt + 1);
    var s' := s.(trace := t + [x], addedIt := s.addedIt + 1);
    assert OverlayPass(e, rect, s');
  }

  /** Emitting the added feature under the cursor keeps the invariant. */
  lemma EmitAddedAt(records: seq<Feature>, e: EditSnapshot, rect: bool, s: PassState, it: nat)
    requires EditsOk(records, e)
    requires PassInv(records, Some(e), rect, s) && s.addedIt <= it < |e.added|
    requires e.added[it].id !in s.considered
    requires rect ==> s.changedIt == |e.changed|
    ensures PassInv(records, Some(e), rect,
                    s.(trace := s.trace + [Emission(FromAdded, e.added[it].id, it)], addedIt := it + 1))
  {
    SkipAddedTo(records, e, rect, s, it);
    EmitAdded(records, e, rect, s.(addedIt := it));
  }

  /** The provider's cursor moving forward keeps the invariant. */
  lemma AdvanceProvider(records: seq<Feature>, edits: Option<EditSnapshot>, rect: bool, s: PassState, pos: nat)
    requires PassInv(records, edits, rect, s) && s.pos <= pos <= |records|
    ensures PassInv(records, edits, rect, s.(pos := pos))
  {
    forall k | Emitted(s.trace, k)
      ensures TraceEntry(records, pos, s.trace[k])
    {
    }
  }

  /** A committed record behind no emission and not considered has an id
      that no emission of the pass carries. */
  lemma FreshProviderId(records: seq<Feature>, edits: Option<EditSnapshot>, rect: bool, s: PassState, at: nat)
    requires UniqueIds(records)
    requires edits.Some? ==> EditsOk(records, edits.value)
    requires PassInv(records, edits, rect, s) && s.pos <= at < |records|
    requires records[at].id !in s.considered
    requires edits.Some? && rect ==> s.changedIt == |edits.value.changed|
    ensures forall k :: 0 <= k < |s.trace| ==> s.trace[k].id != records[at].id
  {
    var t := s.trace;
    forall k | 0 <= k < |t|
      ensures t[k].id != records[at].id
    {
      assert Emitted(t, k);
      match t[k].source
      case FromChangedGeometry =>
        if edits.Some? && rect {
          KeysBeforeHas(edits.value.changed, s.changedIt, t[k].at);
        }
      case FromAdded =>
        assert InRange(edits.value.added, t[k].at) && InRange(records, at);
      case FromProvider =>
        assert t[k].at < at;
        assert InRange(records, t[k].at) && InRange(records, at);
      case FromFid =>
    }
  }

  /** Emitting a committed record not yet considered, once the overlays are
      exhausted, keeps the invariant. */
  lemma EmitProvider(records: seq<Feature>, edits: Option<EditSnapshot>, rect: bool, s: PassState, at: nat)
    requires UniqueIds(records)
    requires edits.Some? ==> EditsOk(records, edits.value)
    requires PassInv(records, edits, rect, s) && s.pos <= at < |records|
    requires records[at].id !in s.considered
    requires edits.Some? ==> s.addedIt == |edits.value.added| && (rect ==> s.changedIt == |edits.value.changed|)
    ensures PassInv(records, edits, rect,
                    s.(trace := s.trace + [Emission(FromProvider, records[at].id, at)], pos := at + 1))
  {
    var t := s.trace;
    var x := Emission(FromProvider, records[at].id, at);
    FreshProviderId(records, edits, rect, s, at);
    TraceAppend(records, t, s.pos, x, at + 1);
    var t' := t + [x];
    var s' := s.(trace := t', pos := at + 1);
    if edits.Some? {
      var e := edits.value;
      assert x.id !in e.deleted;
      OverlayAppend(e, t, s.changedIt, s.addedIt, x, s.changedIt, s.addedIt);
      assert OverlayPass(e, rect, s');
    } else {
      forall k | Emitted(t', k)
        ensures t'[k].source == FromProvider
      {
        if k < |t| {
          assert t'[k] == t[k];
          assert Emitted(t, k);
        }
      }
    }
  }
}

=== FILE: provider.dfy ===
/**
 * The data provider as the iterator sees it: a stored sequence of records,
 * a cursor over the records a request selects, and a point lookup by id.
 */
module Provider {
  import opened Features

  /** Whether the provider hands out a stored record for a request. The
      provider applies the rectangle and id filters itself. */
  predicate Accepts(req: Request, intersects: (Geometry, Rect) -> bool, r: Feature)
  {
    match req.filter
    case NoFilter => true
    case FilterRect(rect) => r.geometry.Some? && intersects(r.geometry.value, rect)
    case FilterFid(fid) => r.id == fid
  }

  /** The feature handed out for a stored record: valid, with the stored id and
      attributes, and the stored geometry unless the request asks for none. */
  function Deliver(req: Request, r: Feature): (f: Feature)
    ensures f.valid && f.id == r.id && f.attributes == r.attributes
    ensures req.noGeometry ==> f.geometry == None
    ensures !req.noGeometry ==> f.geometry == r.geometry
  {
    Feature(r.id, if req.noGeometry then None else r.geometry, r.attributes, true)
  }

  /** Committed features have distinct ids. */
  ghost predicate UniqueIds(records: seq<Feature>)
  {
    forall i, j {:trigger InRange(records, i), InRange(records, j)} ::
      InRange(records, i) && InRange(records, j) && i < j ==> records[i].id != records[j].id
  }

  /** The position of the first stored record with the given id, if any. */
  function PositionOfId(records: seq<Feature>, fid: Fid): (r: Option<nat>)
    ensures r.Some? ==> r.value < |records| && records[r.value].id == fid
    ensures r.Some? ==> forall j :: 0 <= j < r.value ==> records[j].id != fid
    ensures r.None? ==> forall j :: 0 <= j < |records| ==> records[j].id != fid
  {
    if |records| == 0 then None
    else if records[0].id == fid then Some(0)
    else
      match PositionOfId(records[1..], fid)
      case None => None
      case Some(k) => Some(k + 1)
  }

  /** A point request for one id: getFeatures with a FilterFid request followed
      by a single nextFeature. */
  function FeatureAtId(records: seq<Feature>, fid: Fid, noGeometry: bool): (r: Option<Feature>)
    ensures r.None? <==> forall j :: 0 <= j < |records| ==> records[j].id != fid
    ensures r.Some? ==> r.value.valid && r.value.id == fid
    ensures r.Some? ==> exists k :: 0 <= k < |records| && records[k].id == fid
                          && r.value == Deliver(Request(FilterFid(fid), noGeometry, None), records[k])
  {
    match PositionOfId(records, fid)
    case None => None
    case Some(k) => Some(Deliver(Request(FilterFid(fid), noGeometry, None), records[k]))
  }

  /** A provider feature iterator over the records a request selects. */
  class ProviderIterator {
    const records: seq<Feature>
    const request: Request
    const intersects: (Geometry, Rect) -> bool
    var pos: nat
    var closed: bool

    ghost predicate Valid()
      reads this
    {
      pos <= |records|
    }

    constructor (records: seq<Feature>, request: Request, intersects: (Geometry, Rect) -> bool)
      ensures Valid()
      ensures this.records == records && this.request == request && this.intersects == intersects
      ensures pos == 0 && !closed
    {
      this.records := records;
      this.request := request;
      this.intersects := intersects;
      pos := 0;
      closed := false;
    }

    /** Hands out the next selected record after the cursor. */
    method NextFeature() returns (ok: bool, f: Feature)
      requires Valid()
      modifies this
      ensures Valid() && closed == old(closed)
      ensures old(closed) ==> !ok && pos == old(pos)
      ensures !ok ==> !f.valid
      ensures ok ==> old(pos) < pos && Accepts(request, intersects, records[pos - 1])
                     && f == Deliver(request, records[pos - 1])
      ensures ok ==> forall j :: old(pos) <= j < pos - 1 ==> !Accepts(request, intersects, records[j])
      ensures !ok && !old(closed) ==> pos == |records|
      ensures !ok && !old(closed) ==> forall j :: old(pos) <= j < |records| ==> !Accepts(request, intersects, records[j])
    {
      f := Feature(0, None, [], false);
      if closed {
        return false, f;
      }
      while pos < |records|
        invariant old(pos) <= pos <= |records| && !closed
        invariant forall j :: old(pos) <= j < pos ==> !Accepts(request, intersects, records[j])
      {
        var r := records[pos];
        pos := pos + 1;
        if Accepts(request, intersects, r) {
          return true, Deliver(request, r);
        }
      }
      return false, f;
    }

    /** Moves the cursor back to the first record; refused once closed. */
    method Rewind() returns (ok: bool)
      requires Valid()
      modifies this
      ensures Valid() && closed == old(closed)
      ensures ok == !old(closed)
      ensures pos == if ok then 0 else old(pos)
    {
      if closed {
        return false;
      }
      pos := 0;
      return true;
    }

    /** Closes the iterator; a second close reports false and changes nothing. */
    method Close() returns (ok: bool)
      requires Valid()
      modifies this
      ensures Valid() && closed && pos == old(pos)
      ensures ok == !old(closed)
    {
      ok := !closed;
      closed := true;
    }
  }
}
